=== FILE: README.md ===
# Sirdata real-time-data provider, modelled in Dafny

This project models the deterministic core of the Sirdata real-time-data
submodule for Prebid.js (`modules/sirdataRtdProvider.js`) and proves
properties of the model. The submodule asks Sirdata's server for
page-level contextual categories and user-level segments, then hands the
merged signal list to the bids of the auction. The model has five parts:

- **Consent resolution** (`consent.dfy`, module `Consent`). A COPPA flag,
  a U.S. Privacy string and the IAB TCF v2 data decide four things: the
  domain the request goes to (`sddan.com` or `cookieless-data.com`),
  whether credentials are sent, the `gdpr` flag and the consent string.
  The module also builds the request URL.
- **The `set` path helper** (`object_path.dfy`, module `ObjectPath`). It
  walks a dotted path, creating missing intermediate objects, and writes
  the leaf only when the leaf is falsy.
- **Signal merge** (`signal_merge.dfy`, module `SignalMerge`). Categories
  scoring at least the threshold come first, then the segments; any code
  already in the list is skipped. The method `MergeSignals` follows the
  two loops of the source, and `MergedSpec` is the reference definition
  it is proved equal to.
- **Per-bidder shaping** (`bidder_payloads.dfy`, module `BidderPayloads`).
  - appnexus: `params.keywords.sd_rtd` and `params.user.segments`.
  - smartadserver: a `;`-joined `sd_rtd=<code>` target string.
  - ix: first-party data shallow-merged with `{sd_rtd: list}`.
- **Filter and dispatch** (`distribution.dfy`, module `Distribution`).
  It decides which bids are selected, which branch each one takes, and
  how the walk over ad units proceeds. A `TypeError` thrown outside a
  branch's `try` escapes that walk.

Supporting modules:

- `wrappers.dfy` defines `Option`, and `Result` with `Ok`/`Throws`.
- `strings.dfy` defines `indexOf`, `split`/`join` and decimal rendering.
- `js_values.dfy` defines a JSON-like value type. It also models
  JavaScript truthiness, `String(v)`, and strict-mode property reads and
  writes: reading from `undefined`/`null` throws, and so does writing a
  property on a primitive.

Behaviour worth noting, as the code has it:

- The guard `if (!list)` tests an array, which is always truthy. The guard
  never fires, so bids are visited, and `onDone` is reached, even when the
  merged list is empty (`Distribution.EmptyPayloadStillDistributes`).
- The request URL always carries an empty `callback=` parameter
  (`/s?callback=&gdpr=`).
- `adUnitCodes` is consulted only when `bidders` is set
  (`Distribution.AdUnitCodesNeedBidders`).
- The appnexus branch replaces `keywords.sd_rtd` with the list; it does not
  append to it (`BidderPayloads.AppNexusIdempotent`).
- `loadCustomFunction` can fall back to a handler registered under the ad
  unit's code. That branch is unreachable from `addSegmentData`, which only
  calls it when the bidder's own entry is a function
  (`Distribution.CustomFallbackUnreachable`).
- The rubicon branch calls `setBidderOrtb2`, which invokes
  `setBidderConfig` on the bidder-name string. The resulting `TypeError` is
  caught and logged, so the branch has no effect on the model's state.

## Model

| member | source | states |
|---|---|---|
| `ObjectPath.Set` | modules/sirdataRtdProvider.js:18-23 | `set` on a dotted path throws exactly when the walk is blocked by a truthy non-object; on success the path reads its truthy old value, else `val` |
| `ObjectPath.SetKeys` | modules/sirdataRtdProvider.js:18-23 | on success the first key is present and every other top-level key reads as before |
| `ObjectPath.SetKeysThrowsIff` | modules/sirdataRtdProvider.js:21 | `set` throws exactly when some proper prefix of the path reaches a truthy non-object; reaching one is only possible through pre-existing objects, so a throw leaves the object unchanged |
| `ObjectPath.SetKeysLeaf` | modules/sirdataRtdProvider.js:22 | after `set`, the leaf keeps a truthy old value and otherwise holds `val` |
| `ObjectPath.SetKeysCreatesIntermediates` | modules/sirdataRtdProvider.js:21 | after `set`, every proper prefix of the path names an object |
| `ObjectPath.SetKeysFrame` | modules/sirdataRtdProvider.js:18-23 | every path that diverges from the written path reads the same before and after |
| `ObjectPath.SetKeysIdempotent` | modules/sirdataRtdProvider.js:18-23 | a second `set` with the same path and value changes nothing |
| `Strings.Split` | modules/sirdataRtdProvider.js:19 | `split` yields at least one part, and no part contains the separator |
| `Strings.JoinChars` | modules/sirdataRtdProvider.js:217 | a `join` starts with its first part, and every character is the separator or comes from a part |
| `Strings.IntToDecimal` | modules/sirdataRtdProvider.js:62 | a number renders as decimal digits reading back as its value, with a leading `-` when negative |
| `Strings.IndexOf` | modules/sirdataRtdProvider.js:165 | `indexOf` is -1 exactly when the element is absent, and otherwise the position of its first occurrence |
| `Strings.SplitJoin` | modules/sirdataRtdProvider.js:19 | splitting a separator-joined list of separator-free parts gives the parts back |
| `Strings.JoinSplit` | modules/sirdataRtdProvider.js:19 | joining the parts of a split gives the string back |
| `Strings.DecimalRoundTrip` | modules/sirdataRtdProvider.js:62 | the decimal rendering of a number used in the URL reads back as that number |
| `JsValues.Truthy` | modules/sirdataRtdProvider.js:22 | a value is falsy exactly when it is `null`, `false`, `0` or the empty string (`undefined` is an absent value) |
| `JsValues.ToJsString` | modules/sirdataRtdProvider.js:62 | string concatenation renders a string as itself, a number in decimal, a boolean as `true` or `false`, `null` as `null`, an empty array as the empty string and an object as `[object Object]` |
| `JsValues.GetProp` | modules/sirdataRtdProvider.js:196 | reading a property throws exactly on `undefined` or `null`, and yields an own property only of an object |
| `JsValues.PutProp` | modules/sirdataRtdProvider.js:200 | a property assignment succeeds exactly on an object and then sets only that key |
| `Consent.InitialTcString` | modules/sirdataRtdProvider.js:29 | the consent string is the TCF string when that is truthy, else empty |
| `Consent.InitialGdprApplies` | modules/sirdataRtdProvider.js:30 | `gdprApplies` is the supplied value when truthy, else the empty string |
| `Consent.TcfConsentCheck` | modules/sirdataRtdProvider.js:49-50 | the TCF check passes exactly when vendor 53 and Purposes 1 and 3 all have consent; it throws when vendor 53 has consent but purpose consents are missing |
| `Consent.Resolve` | modules/sirdataRtdProvider.js:29-55 | COPPA wins and forces the cookieless domain, no credentials and an empty consent string; otherwise a U.S. Privacy string decides alone (opt-out iff cookieless, with `gdpr=false`); credentials go exactly to `sddan.com`; the consent string passes through; the exact throw conditions |
| `Consent.CredentialsIffMayIdentify` | modules/sirdataRtdProvider.js:31-55 | credentials are sent exactly when no COPPA flag, no U.S. Privacy opt-out and no missing TCF consent forbids identifying the user |
| `Consent.UspShadowsTcf` | modules/sirdataRtdProvider.js:41-48 | with a U.S. Privacy string and no COPPA flag, replacing the TCF vendor data does not change the result |
| `Consent.ConfigIdOrOne` | modules/sirdataRtdProvider.js:34-35 | partner id and key are the configured value when truthy, else 1; always truthy |
| `Consent.RequestUrlShape` | modules/sirdataRtdProvider.js:62 | the URL starts with `https://kvt.<domain>/api/v1/public/p/` and ends with the page URL when known, else with the consent string |
| `Consent.RequestHost` | modules/sirdataRtdProvider.js:62 | the request host is `kvt.` followed by the resolved domain |
| `Consent.CoppaSendsNoConsentString` | modules/sirdataRtdProvider.js:37-62 | under COPPA, for every page URL, `gdpr_consent` is empty: the URL ends with `&gdpr_consent=`, followed by `&url=<page>` when the page URL is non-empty |
| `SignalMerge.EffectiveThreshold` | modules/sirdataRtdProvider.js:159 | the threshold is the configured score when truthy, else 30, and never 0 |
| `SignalMerge.QualifyingExtremes` | modules/sirdataRtdProvider.js:163-169 | no category qualifies exactly when every score is below the threshold; all qualify exactly when every score reaches it |
| `SignalMerge.QualifyingMembers` | modules/sirdataRtdProvider.js:163-169 | a code is among the qualifying categories exactly when some entry has it with a score at or above the threshold |
| `SignalMerge.KeepFirstMembers` | modules/sirdataRtdProvider.js:165-175 | de-duplication keeps exactly the members of its input |
| `SignalMerge.KeepFirstNoDup` | modules/sirdataRtdProvider.js:165-175 | the de-duplicated list has no repeated code |
| `SignalMerge.KeepFirstOrder` | modules/sirdataRtdProvider.js:164-177 | codes appear in the order of their first occurrence in the input |
| `SignalMerge.KeepFirstPrefix` | modules/sirdataRtdProvider.js:171-178 | appending segments never disturbs the categories already kept |
| `SignalMerge.MergedSpec` | modules/sirdataRtdProvider.js:160-178 | the list is the categories followed by the segments, without duplicates |
| `SignalMerge.MergedMembers` | modules/sirdataRtdProvider.js:163-178 | categories are exactly the qualifying codes; segments are exactly the segment codes that are not categories; the list is their union |
| `SignalMerge.MergeSignals` | modules/sirdataRtdProvider.js:159-178 | the two `forEach` loops compute the reference merge |
| `SignalMerge.MergeCategories` | modules/sirdataRtdProvider.js:163-170 | the category loop leaves `list` and `categories` equal to the reference merge of the qualifying codes |
| `SignalMerge.MergeSegments` | modules/sirdataRtdProvider.js:171-178 | the segment loop extends `list` by exactly `segments`, ending at the reference merge of categories then segments |
| `SignalMerge.MergeExample` | modules/sirdataRtdProvider.js:159-178 | categories IAB1 (score 50) and IAB2 (score 10) with segments S1, S2 and the default threshold give `["IAB1", "S1", "S2"]` |
| `BidderPayloads.AppNexus` | modules/sirdataRtdProvider.js:194-205 | the appnexus branch throws exactly when `params` is missing or `null`; only `params` changes |
| `BidderPayloads.AppNexusKeywords` | modules/sirdataRtdProvider.js:195-201 | for object or falsy `params` with object or absent keywords, `params.keywords.sd_rtd` becomes exactly the list and every other keyword is kept |
| `BidderPayloads.AppNexusUserSegments` | modules/sirdataRtdProvider.js:202 | for object or falsy `params` and `user`, `params.user.segments` holds the list unless it already held a truthy value |
| `BidderPayloads.AppNexusUserBlocked` | modules/sirdataRtdProvider.js:199-205 | with a truthy primitive `params.user`, the second `set` throws and is caught: the keywords write stays and `params.user` is as it was |
| `BidderPayloads.AliasedFrame` | modules/sirdataRtdProvider.js:196-200 | when the keywords object is the one inside `params`, writing `sd_rtd` into it changes no path outside `params.keywords.sd_rtd` |
| `BidderPayloads.KeywordsWriteFrame` | modules/sirdataRtdProvider.js:201 | `set(bid, 'params.keywords', keywords)` changes no path that diverges from `params.keywords.sd_rtd` |
| `BidderPayloads.AppNexusFrame` | modules/sirdataRtdProvider.js:194-205 | a successful appnexus branch changes no path of the bid, inside `params` or out, that diverges from both `params.keywords.sd_rtd` and `params.user.segments` |
| `BidderPayloads.AppNexusCaughtLeavesBid` | modules/sirdataRtdProvider.js:196-205 | with a truthy primitive `params`, or `keywords` present but not an object, the first write inside the `try` throws, is caught, and the bid is left exactly as it was |
| `BidderPayloads.AppNexusIdempotent` | modules/sirdataRtdProvider.js:194-205 | running the branch twice with the same list equals running it once |
| `BidderPayloads.AppNexusSecondRun` | modules/sirdataRtdProvider.js:196-202 | when the keywords already hold the list, only the user-segments write can change the bid |
| `BidderPayloads.SmartAdServerCaughtLeavesBid` | modules/sirdataRtdProvider.js:211-220 | with a truthy primitive `params`, the `set` inside the `try` throws, is caught, and the bid is left exactly as it was |
| `BidderPayloads.SmartAdServer` | modules/sirdataRtdProvider.js:206-220 | the smartadserver branch throws exactly when `params` is missing or `null`; only `params` changes |
| `BidderPayloads.AddTargetsSpec` | modules/sirdataRtdProvider.js:212-216 | the targets grow from the old ones; every `sd_rtd=<code>` of the list ends up present, and each added entry is some code's, was not there before and is added once |
| `BidderPayloads.AddTargetsFresh` | modules/sirdataRtdProvider.js:212-216 | with a duplicate-free list whose entries are not yet targets, each `sd_rtd=<code>` is appended once, in order |
| `BidderPayloads.TargetsNoDup` | modules/sirdataRtdProvider.js:213 | distinct codes give distinct target entries |
| `BidderPayloads.SmartAdServerFrame` | modules/sirdataRtdProvider.js:206-220 | a successful smartadserver branch changes no path of the bid that diverges from `params.target` |
| `BidderPayloads.SmartAdServerKeepsTruthyTarget` | modules/sirdataRtdProvider.js:217 | a truthy `params.target` is left as it was |
| `BidderPayloads.SmartAdServerFreshTarget` | modules/sirdataRtdProvider.js:207-217 | with no target yet, `params.target` becomes the `;`-joined target entries, each once |
| `BidderPayloads.TargetRoundTrip` | modules/sirdataRtdProvider.js:217 | splitting the target string on `;` gives back the entries, when no code contains `;` |
| `BidderPayloads.IxFirstPartyData` | modules/sirdataRtdProvider.js:224-227 | `sd_rtd` is the list; the other keys are those of the configured data, with their values |
| `BidderPayloads.IxFirstPartyDataIdempotent` | modules/sirdataRtdProvider.js:226 | merging again with the same list gives the same data |
| `Distribution.Selected` | modules/sirdataRtdProvider.js:191 | a bid is selected exactly when no bidder list is set, or its bidder is listed and the ad-unit list is unset or lists its unit |
| `Distribution.AdUnitCodesNeedBidders` | modules/sirdataRtdProvider.js:191 | with no bidder list every bid is selected, whatever the ad-unit list says |
| `Distribution.EmptyBidderListSelectsNothing` | modules/sirdataRtdProvider.js:191 | an empty bidder list selects no bid |
| `Distribution.LoadCustomFunction` | modules/sirdataRtdProvider.js:143-152 | the handler run is the bidder's truthy entry, else the ad unit's truthy entry; a non-function entry runs nothing |
| `Distribution.Dispatch` | modules/sirdataRtdProvider.js:192-238 | a custom function for the bidder wins; otherwise appnexus, smartadserver, ix and rubicon by exact name; any other bidder is untouched |
| `Distribution.CustomFallbackUnreachable` | modules/sirdataRtdProvider.js:145-148 | from the dispatch, the handler run is always the bidder's own |
| `Distribution.ProcessBid` | modules/sirdataRtdProvider.js:191-238 | a bid escapes exactly when it is a selected appnexus or smartadserver bid without `params`; bids not rewritten are unchanged; only appnexus and smartadserver bids change their own properties, and only ix bids the object `getConfig` answers; the effects are none for an unselected bid, the custom handler's call for a bid with one, the `setConfig` with the merged first-party data for ix (the very object `getConfig` answered, when there was one), and none otherwise |
| `Distribution.IxAnswerUpdatedInPlace` | modules/sirdataRtdProvider.js:222-226 | `Object.assign` merges into the object `getConfig` answered: afterwards it holds `sd_rtd` equal to the list and keeps every other key's value |
| `Distribution.ProcessBidFrame` | modules/sirdataRtdProvider.js:191-238 | a processed bid reads the same at every path diverging from `params.keywords.sd_rtd`, `params.user.segments` and `params.target` |
| `Distribution.ProcessBids` | modules/sirdataRtdProvider.js:190-240 | the walk over a unit's bids keeps their number and bidders, escapes exactly when some bid escapes, and leaves every bid from an escaping one onward untouched |
| `Distribution.ProcessBidsApplies` | modules/sirdataRtdProvider.js:190-240 | every bid up to the first escaping one is processed: the walk leaves in its place what its branch makes of it, and its calls out of the module are among the unit's |
| `Distribution.ProcessBidsEffectsOfUnit` | modules/sirdataRtdProvider.js:190-240 | every effect of walking a unit's bids is attributed to that unit's code |
| `Distribution.ProcessUnits` | modules/sirdataRtdProvider.js:189-241 | the walk over ad units keeps codes, bid counts and bidders, leaves non-rewritten bids alone, and escapes exactly when some unit has an escaping bid |
| `Distribution.ProcessUnitsApplies` | modules/sirdataRtdProvider.js:189-241 | every ad unit with bids, up to the first escaping unit, has its bids processed by the inner walk, and their calls are among the walk's |
| `Distribution.ProcessUnitsStops` | modules/sirdataRtdProvider.js:189-241 | every ad unit after one that escapes is left as it was |
| `Distribution.AddSegmentData` | modules/sirdataRtdProvider.js:154-243 | the list is the reference merge, distributed with no emptiness guard, every ad unit up to the first escaping one has its bids processed, and `onDone` is reached exactly when no bid escapes |
| `Distribution.DispatchedAppNexusReceivesList` | modules/sirdataRtdProvider.js:194-201 | a selected appnexus bid with object `params` ends with `params.keywords.sd_rtd` equal to the list |
| `Distribution.EmptyPayloadStillDistributes` | modules/sirdataRtdProvider.js:179 | an empty payload merges to the empty list, which is still written into a selected appnexus bid |
| `Distribution.AllowListExample` | modules/sirdataRtdProvider.js:191 | with `bidders = ["appnexus"]` and `adUnitCodes = ["div-1"]`, only the appnexus bid of `div-1` is written |

## Left out

- The network request, its status handling and `JSON.parse` (lines 63-94)
  are not modelled. In particular, the response handler calls `onDone`
  after an error escapes `addSegmentData`; that call is outside the model.
  `Distribution.AddSegmentData` reports instead whether the call at line
  243 is reached.
- `window.top.location.href` (lines 57-60) is not modelled: the page URL
  is a parameter of `Consent.RequestUrl`.
- The `window.googletag` slot targeting (lines 181-187) touches browser
  globals and is not modelled.
- `getGlobal().adUnits` as a fallback source of ad units is not modelled.
- Custom handlers are caller-supplied closures. Running one is recorded as
  a `CustomCalled` effect. Anything the handler does to the ad unit is not
  modelled, and neither is an exception it throws (which is swallowed).
- `bid.getConfig` and `adUnit.setConfig` in the ix branch are host calls.
  The answer of `getConfig` is a field of the bid. `Object.assign` updates
  that object in place, so the merged object is written back into the
  field. The call to `setConfig` is recorded as an `IxConfigured` effect.
  Failures of the two calls, caught by the branch's `try`, are not
  modelled.
- `Object.assign` over a non-object `ix.firstPartyData` is not modelled.
- `setBidderOrtb2` and `setBidderFpd` (lines 97-141) are not modelled:
  they only ever return `true`. `setBidderFpd` calls nothing.
  `setBidderOrtb2` reads `getGlobal()` and logs it. Its only call with an
  effect on the bid request throws and is caught.
- `init`, the submodule registration and every `utils.log*` call are host
  glue and are not modelled.
- Relevancy scores are integers; floating-point scores are not modelled.
- `.entries()` on the payload's categories and segments (lines 164, 172)
  is modelled as iteration over a sequence of key/value pairs, which is the
  evident intent. As written, the source throws there. The fields come
  from `JSON.parse` (line 67), and a plain object has no `entries` method.
  So the call throws a `TypeError` for any truthy object field. The error
  escapes `addSegmentData`, the `catch` at lines 73-76 calls `onDone`, and
  no bid is touched. The model instead merges the signals and distributes
  them. (An array field does have `entries`, but the iterator it returns
  has a `forEach` method only on engines that provide iterator helpers.)
- Arrays are treated like primitives for property writes. A named
  property set on an array by `set` is not modelled; such a write throws
  in the model.
- Properties inherited through the prototype chain (for example a bidder
  named `constructor`) are not modelled: lookups see own properties only.
- An ad unit whose own `bids` property is not an array is not modelled.
- `Strings.IntToDecimal` does not render numbers of magnitude 10^21 or
  more in exponent form, as JavaScript does.
- `Consent.RequestUrlShape` states the URL's prefix and suffix, not the
  full string.
- Objects shared between bids or ad units are treated as independent
  copies. For example, when an appnexus bid and a smartadserver bid share
  one `params` object, the write through one is not seen through the
  other.
- The writes of defaults back into the caller's `config` are not
  modelled; only the defaulted values are. These are `config.params =
  config.params || {}` (lines 27 and 158), `partnerId` and `key` defaulted
  to 1 (lines 34-35, values in `Consent.ConfigIdOrOne`) and the threshold
  defaulted to 30 (line 159, value in `SignalMerge.EffectiveThreshold`).

=== FILE: bidder_payloads.dfy ===
/** How `addSegmentData` writes the signal list into the configuration of the
    three bidders it knows how to shape: appnexus keywords and user segments,
    the smartadserver target string, and the ix first-party data. A bid is its
    map of properties; `list` is the merged signal list. */
module BidderPayloads {
  import opened Wrappers
  import opened Strings
  import opened JsValues
  import opened ObjectPath

  /** The key under which every payload carries the signal list. */
  const SignalKey := "sd_rtd"
  /** `'params.keywords'`, `'params.user.segments'` and `'params.target'`,
      split into keys. */
  const KeywordsKeys := ["params", "keywords"]
  const SegmentsKeys := ["params", "user", "segments"]
  const TargetKeys := ["params", "target"]

  /** The dotted paths the source passes to `set` denote these keys. */
  lemma KeywordsPathKeys()
    ensures Split("params.keywords", '.') == KeywordsKeys
  {
    assert Join(KeywordsKeys, '.') == "params.keywords";
    SplitJoin(KeywordsKeys, '.');
  }

  lemma SegmentsPathKeys()
    ensures Split("params.user.segments", '.') == SegmentsKeys
  {
    assert SegmentsKeys[1..] == ["user", "segments"];
    assert Join(SegmentsKeys, '.') == "params.user.segments";
    SplitJoin(SegmentsKeys, '.');
  }

  lemma TargetPathKeys()
    ensures Split("params.target", '.') == TargetKeys
  {
    assert Join(TargetKeys, '.') == "params.target";
    SplitJoin(TargetKeys, '.');
  }

  // ---------------------------------------------------------------- appnexus

  /** The appnexus branch. Reading `bid.params.keywords` happens before the
      `try`, so a missing or null `params` throws out of `addSegmentData`.
      Inside the `try` a failure stops the remaining writes but keeps the ones
      already made. */
  function AppNexus(bid: map<string, Json>, list: seq<string>): (r: Result<map<string, Json>>)
    ensures r.Throws? <==> "params" !in bid || bid["params"] == JNull
    ensures r.Ok? ==> forall k :: k != "params" ==> Field(r.value, k) == Field(bid, k)
  {
    match GetProp(Field(bid, "params"), "keywords")
    case Throws(e) => Throws(e)
    case Ok(existing) => Ok(AppNexusWrites(bid, existing, list))
  }

  /** The `try` block of the appnexus branch, given the keywords read. */
  function AppNexusWrites(bid: map<string, Json>, existing: Option<Json>, list: seq<string>): (r: map<string, Json>)
    requires existing.Some? ==> "params" in bid && bid["params"].JObj? && "keywords" in bid["params"].fields
                                && bid["params"].fields["keywords"] == existing.value
    ensures forall k :: k != "params" ==> Field(r, k) == Field(bid, k)
  {
    var sdRtd := SignalArray(list);
    match PutProp(existing.GetOr(JObj(map[])), SignalKey, sdRtd)
    case Throws(_) => bid
    case Ok(keywords) =>
      // an existing keywords object is updated in place: the bid sees the change at once
      var aliased := Aliased(bid, existing, keywords);
      match SetKeys(aliased, KeywordsKeys, keywords)
      case Throws(_) => aliased
      case Ok(withKeywords) =>
        match SetKeys(withKeywords, SegmentsKeys, sdRtd)
        case Throws(_) => withKeywords
        case Ok(withSegments) => withSegments
  }

  /** `params` as the appnexus branch can shape it: present, not `null`, and
      either falsy (a fresh object takes its place) or an object whose
      `keywords` is absent or an object. */
  predicate KeywordsWritable(bid: map<string, Json>) {
    && "params" in bid && bid["params"] != JNull
    && (Truthy(bid["params"]) ==>
          bid["params"].JObj? && ("keywords" !in bid["params"].fields || bid["params"].fields["keywords"].JObj?))
  }

  /** The keywords object the appnexus branch writes: the keywords read from
      `params` (or a fresh object) with `sd_rtd` set to the list. */
  function NewKeywords(existing: Option<Json>, list: seq<string>): Json
    requires existing.Some? ==> existing.value.JObj?
  {
    JObj((if existing.Some? then existing.value.fields else map[])[SignalKey := SignalArray(list)])
  }

  /** The bid as seen right after `keywords.sd_rtd = list`: when the keywords
      came from the bid, the bid shares the updated object. */
  function Aliased(bid: map<string, Json>, existing: Option<Json>, keywords: Json): map<string, Json>
    requires existing.Some? ==> "params" in bid && bid["params"].JObj?
  {
    if existing.Some? then bid["params" := JObj(bid["params"].fields["keywords" := keywords])] else bid
  }

  /** The first write of the appnexus branch: `params.keywords` then holds the
      old keywords with `sd_rtd` replaced by the list. */
  lemma AppNexusKeywordsWrite(bid: map<string, Json>, list: seq<string>)
    requires KeywordsWritable(bid)
    ensures var existing := GetProp(Field(bid, "params"), "keywords").value;
            && (existing.Some? ==> bid["params"].JObj? && existing.value.JObj?)
            && var keywords := NewKeywords(existing, list);
               var aliased := Aliased(bid, existing, keywords);
               && SetKeys(aliased, KeywordsKeys, keywords).Ok?
               && Lookup(JObj(SetKeys(aliased, KeywordsKeys, keywords).value), KeywordsKeys) == Some(keywords)
  {
    var existing := GetProp(Field(bid, "params"), "keywords").value;
    var keywords := NewKeywords(existing, list);
    var aliased := Aliased(bid, existing, keywords);
    if Truthy(bid["params"]) {
      assert aliased["params"].JObj?;
    } else {
      assert aliased == bid;
      assert Child(aliased, "params") == JObj(map[]);
    }
    SetKeysLeaf(aliased, KeywordsKeys, keywords);
  }

  /** With `params` falsy, or an object whose `keywords` is absent or an
      object, `keywords.sd_rtd` becomes exactly the list and every other
      keyword is kept. */
  lemma AppNexusKeywords(bid: map<string, Json>, list: seq<string>, other: string)
    requires KeywordsWritable(bid)
    requires other != SignalKey
    ensures AppNexus(bid, list).Ok?
    ensures var r := JObj(AppNexus(bid, list).value);
            && Lookup(r, KeywordsKeys + [SignalKey]) == Some(SignalArray(list))
            && Lookup(r, KeywordsKeys + [other]) == Lookup(JObj(bid), KeywordsKeys + [other])
  {
    var existing := GetProp(Field(bid, "params"), "keywords").value;
    var sdRtd := SignalArray(list);
    AppNexusKeywordsWrite(bid, list);
    var keywords := NewKeywords(existing, list);
    var aliased := Aliased(bid, existing, keywords);
    var withKeywords := SetKeys(aliased, KeywordsKeys, keywords).value;
    var r := AppNexusWrites(bid, existing, list);
    assert r == withKeywords || SetKeys(withKeywords, SegmentsKeys, sdRtd) == Ok(r);
    if r != withKeywords {
      SetKeysFrame(withKeywords, SegmentsKeys, sdRtd, KeywordsKeys);
    }
    assert Lookup(JObj(r), KeywordsKeys) == Some(keywords);
    LookupExtend(JObj(r), KeywordsKeys, SignalKey);
    LookupExtend(JObj(r), KeywordsKeys, other);
    LookupExtend(JObj(bid), KeywordsKeys, other);
  }

  /** The bid after the keywords write of the appnexus branch. */
  function AfterKeywords(bid: map<string, Json>, list: seq<string>): map<string, Json>
    requires KeywordsWritable(bid)
  {
    AppNexusKeywordsWrite(bid, list);
    var existing := GetProp(Field(bid, "params"), "keywords").value;
    var keywords := NewKeywords(existing, list);
    SetKeys(Aliased(bid, existing, keywords), KeywordsKeys, keywords).value
  }

  /** The keywords write leaves `params` an object and `params.user` as it was. */
  lemma AfterKeywordsKeepsUser(bid: map<string, Json>, list: seq<string>)
    requires KeywordsWritable(bid)
    ensures var w := AfterKeywords(bid, list);
            && Lookup(JObj(w), SegmentsKeys[..1]).Some? && Lookup(JObj(w), SegmentsKeys[..1]).value.JObj?
            && Lookup(JObj(w), SegmentsKeys[..2]) == Lookup(JObj(bid), SegmentsKeys[..2])
            && Lookup(JObj(w), SegmentsKeys) == Lookup(JObj(bid), SegmentsKeys)
  {
    AppNexusKeywordsWrite(bid, list);
    var existing := GetProp(Field(bid, "params"), "keywords").value;
    var keywords := NewKeywords(existing, list);
    var aliased := Aliased(bid, existing, keywords);
    assert Diverges(SegmentsKeys, KeywordsKeys);
    assert Diverges(SegmentsKeys[..2], KeywordsKeys);
    SetKeysFrame(aliased, KeywordsKeys, keywords, SegmentsKeys);
    SetKeysFrame(aliased, KeywordsKeys, keywords, SegmentsKeys[..2]);
    SetKeysCreatesIntermediates(aliased, KeywordsKeys, keywords, 1);
    assert SegmentsKeys[..1] == KeywordsKeys[..1];
    if existing.Some? {
      assert Lookup(JObj(aliased), SegmentsKeys[..2]) == Lookup(JObj(bid), SegmentsKeys[..2]);
      assert Lookup(JObj(aliased), SegmentsKeys) == Lookup(JObj(bid), SegmentsKeys);
    }
  }

  /** The appnexus branch is the keywords write followed by the user-segments
      write. */
  lemma AppNexusInTwoWrites(bid: map<string, Json>, list: seq<string>)
    requires KeywordsWritable(bid)
    ensures AppNexus(bid, list) ==
              match SetKeys(AfterKeywords(bid, list), SegmentsKeys, SignalArray(list))
              case Ok(written) => Ok(written)
              case Throws(_) => Ok(AfterKeywords(bid, list))
  {
    AppNexusKeywordsWrite(bid, list);
  }

  /** The second write of the appnexus branch: when `params.user` is absent,
      falsy or an object, `params.user.segments` holds the list unless it
      already held a truthy value, which is kept. */
  lemma AppNexusUserSegments(bid: map<string, Json>, list: seq<string>)
    requires KeywordsWritable(bid)
    requires var user := Lookup(JObj(bid), SegmentsKeys[..2]); !TruthyOpt(user) || user.value.JObj?
    ensures AppNexus(bid, list).Ok?
    ensures var before := Lookup(JObj(bid), SegmentsKeys);
            Lookup(JObj(AppNexus(bid, list).value), SegmentsKeys) == if TruthyOpt(before) then before else Some(SignalArray(list))
  {
    var sdRtd := SignalArray(list);
    var w := AfterKeywords(bid, list);
    AfterKeywordsKeepsUser(bid, list);
    AppNexusInTwoWrites(bid, list);
    assert !Blocked(w, SegmentsKeys) by {
      assert !WalkStopsAt(w, SegmentsKeys, 1);
      assert !WalkStopsAt(w, SegmentsKeys, 2);
    }
    SetKeysThrowsIff(w, SegmentsKeys, sdRtd);
    SetKeysLeaf(w, SegmentsKeys, sdRtd);
  }

  /** A truthy primitive `params.user` makes the second `set` throw inside
      the `try`: the keywords write stays, and `params.user` is left as it
      was. */
  lemma AppNexusUserBlocked(bid: map<string, Json>, list: seq<string>)
    requires KeywordsWritable(bid)
    requires var user := Lookup(JObj(bid), SegmentsKeys[..2]); TruthyOpt(user) && !user.value.JObj?
    ensures AppNexus(bid, list) == Ok(AfterKeywords(bid, list))
    ensures Lookup(JObj(AppNexus(bid, list).value), SegmentsKeys[..2]) == Lookup(JObj(bid), SegmentsKeys[..2])
  {
    var w := AfterKeywords(bid, list);
    AfterKeywordsKeepsUser(bid, list);
    AppNexusInTwoWrites(bid, list);
    assert WalkStopsAt(w, SegmentsKeys, 2);
    SetKeysThrowsIff(w, SegmentsKeys, SignalArray(list));
  }

  /** Following one more key after a path reads a field of the value reached. */
  lemma {:induction false} LookupExtend(j: Json, path: seq<string>, k: string)
    ensures Lookup(j, path + [k]) ==
              match Lookup(j, path)
              case Some(JObj(m)) => Field(m, k)
              case _ => None
    decreases |path|
  {
    if |path| > 0 {
      assert (path + [k])[1..] == path[1..] + [k];
      if j.JObj? && path[0] in j.fields {
        LookupExtend(j.fields[path[0]], path[1..], k);
      }
    }
  }

  /** Running the appnexus branch twice with the same list changes nothing more
      than running it once: `sd_rtd` is replaced, never appended to. */
  lemma AppNexusIdempotent(bid: map<string, Json>, list: seq<string>)
    requires AppNexus(bid, list).Ok?
    ensures AppNexus(AppNexus(bid, list).value, list) == AppNexus(bid, list)
  {
    var sdRtd := SignalArray(list);
    var existing := GetProp(Field(bid, "params"), "keywords").value;
    var r := AppNexus(bid, list).value;
    match PutProp(existing.GetOr(JObj(map[])), SignalKey, sdRtd)
    case Throws(_) =>
      assert r == bid;
    case Ok(keywords) =>
      var aliased := Aliased(bid, existing, keywords);
      match SetKeys(aliased, KeywordsKeys, keywords)
      case Throws(_) =>
        assert r == aliased;
        assert !existing.Some?;
        assert r == bid;
      case Ok(withKeywords) =>
        SetKeysLeaf(aliased, KeywordsKeys, keywords);
        SetKeysCreatesIntermediates(aliased, KeywordsKeys, keywords, 1);
        assert KeywordsKeys[..1] == ["params"];
        assert Lookup(JObj(withKeywords), KeywordsKeys) == Some(keywords) by {
          if existing.Some? {
            assert Lookup(JObj(aliased), KeywordsKeys) == Some(keywords);
          }
        }
        AppNexusSecondRun(withKeywords, keywords, list);
        match SetKeys(withKeywords, SegmentsKeys, sdRtd)
        case Throws(_) =>
          assert r == withKeywords;
        case Ok(withSegments) =>
          assert r == withSegments;
          SetKeysFrame(withKeywords, SegmentsKeys, sdRtd, KeywordsKeys);
          SetKeysCreatesIntermediates(withKeywords, SegmentsKeys, sdRtd, 1);
          assert SegmentsKeys[..1] == ["params"];
          SetKeysIdempotent(withKeywords, SegmentsKeys, sdRtd);
          AppNexusSecondRun(withSegments, keywords, list);
  }

  /** The appnexus branch on a bid whose `params.keywords` already holds the
      list: it only (re)applies the user-segments write. */
  lemma AppNexusSecondRun(b: map<string, Json>, keywords: Json, list: seq<string>)
    requires Lookup(JObj(b), KeywordsKeys) == Some(keywords)
    requires keywords.JObj? && SignalKey in keywords.fields && keywords.fields[SignalKey] == SignalArray(list)
    ensures AppNexus(b, list) ==
              match SetKeys(b, SegmentsKeys, SignalArray(list))
              case Throws(_) => Ok(b)
              case Ok(b') => Ok(b')
  {
    SecondRunKeywords(b, keywords, list);
    assert GetProp(Field(b, "params"), "keywords") == Ok(Some(keywords));
    assert AppNexus(b, list) == Ok(AppNexusWrites(b, Some(keywords), list));
  }

  /** The keywords half of a second run: writing the list again into
      keywords that hold it, then storing them back, changes nothing. */
  lemma SecondRunKeywords(b: map<string, Json>, keywords: Json, list: seq<string>)
    requires Lookup(JObj(b), KeywordsKeys) == Some(keywords)
    requires keywords.JObj? && SignalKey in keywords.fields && keywords.fields[SignalKey] == SignalArray(list)
    ensures "params" in b && b["params"].JObj? && "keywords" in b["params"].fields
    ensures PutProp(keywords, SignalKey, SignalArray(list)) == Ok(keywords)
    ensures NewKeywords(Some(keywords), list) == keywords
    ensures Aliased(b, Some(keywords), keywords) == b
    ensures SetKeys(b, KeywordsKeys, keywords) == Ok(b)
  {
    var p := b["params"].fields;
    assert p["keywords"] == keywords;
    assert keywords.fields[SignalKey := SignalArray(list)] == keywords.fields;
    assert p["keywords" := keywords] == p;
    assert b["params" := JObj(p)] == b;
    assert SetKeys(p, ["keywords"], keywords) == Ok(p);
    assert KeywordsKeys[1..] == ["keywords"];
  }

  /** Updating `keywords.sd_rtd` in place is seen through the bid at that one
      place only. */
  lemma AliasedFrame(bid: map<string, Json>, existing: Option<Json>, list: seq<string>, p: seq<string>)
    requires existing.Some? ==> "params" in bid && bid["params"].JObj? && "keywords" in bid["params"].fields
                                && bid["params"].fields["keywords"] == existing.value && existing.value.JObj?
    requires Diverges(p, KeywordsKeys + [SignalKey])
    ensures Lookup(JObj(Aliased(bid, existing, NewKeywords(existing, list))), p) == Lookup(JObj(bid), p)
  {
    if existing.Some? && p[0] == "params" {
      var params := bid["params"].fields;
      var keywords := NewKeywords(existing, list);
      var params' := params["keywords" := keywords];
      assert Diverges(p[1..], ["keywords", SignalKey]) by {
        assert (KeywordsKeys + [SignalKey])[1..] == ["keywords", SignalKey];
      }
      if p[1] == "keywords" {
        assert p[1..][1..] == p[2..];
        assert Diverges(p[2..], [SignalKey]);
        var k := p[2..][0];
        assert !Diverges(p[2..][1..], [SignalKey][1..]);
        assert k != SignalKey;
        assert keywords.fields == existing.value.fields[SignalKey := SignalArray(list)];
        assert Field(keywords.fields, k) == Field(existing.value.fields, k);
        assert Lookup(keywords, p[2..]) == Lookup(existing.value, p[2..]);
      } else {
        assert Lookup(JObj(params'), p[1..]) == Lookup(JObj(params), p[1..]);
      }
    }
  }

  /** The `set` of `params.keywords` changes nothing but `keywords.sd_rtd`:
      either the keywords object is already in place (and stays), or a fresh
      object holding only `sd_rtd` takes the place of a missing or falsy one. */
  lemma KeywordsWriteFrame(m: map<string, Json>, keywords: Json, p: seq<string>)
    requires keywords.JObj?
    requires SetKeys(m, KeywordsKeys, keywords).Ok?
    requires TruthyOpt(Lookup(JObj(m), KeywordsKeys)) || keywords.fields.Keys == {SignalKey}
    requires Diverges(p, KeywordsKeys + [SignalKey])
    ensures Lookup(JObj(SetKeys(m, KeywordsKeys, keywords).value), p) == Lookup(JObj(m), p)
  {
    if Diverges(p, KeywordsKeys) {
      SetKeysFrame(m, KeywordsKeys, keywords, p);
    } else {
      DivergesBelow(p, KeywordsKeys, SignalKey);
      assert p == KeywordsKeys + p[2..];
      KeywordsWriteBelow(m, keywords, p[2..]);
    }
  }

  /** The paths inside `params.keywords` other than `sd_rtd` read the same
      after the `set` of `params.keywords`. */
  lemma KeywordsWriteBelow(m: map<string, Json>, keywords: Json, rest: seq<string>)
    requires keywords.JObj?
    requires SetKeys(m, KeywordsKeys, keywords).Ok?
    requires TruthyOpt(Lookup(JObj(m), KeywordsKeys)) || keywords.fields.Keys == {SignalKey}
    requires |rest| > 0 && rest[0] != SignalKey
    ensures Lookup(JObj(SetKeys(m, KeywordsKeys, keywords).value), KeywordsKeys + rest)
            == Lookup(JObj(m), KeywordsKeys + rest)
  {
    var w := SetKeys(m, KeywordsKeys, keywords).value;
    LookupAppend(JObj(w), KeywordsKeys, rest);
    LookupAppend(JObj(m), KeywordsKeys, rest);
    SetKeysLeaf(m, KeywordsKeys, keywords);
    var before := Lookup(JObj(m), KeywordsKeys);
    if !TruthyOpt(before) {
      assert rest[0] !in keywords.fields;
      assert Lookup(keywords, rest) == None;
      if before.Some? {
        assert !before.value.JObj?;
      }
    }
  }

  /** Nothing outside the two places the appnexus branch writes changes: every
      path that leaves both `params.keywords.sd_rtd` and `params.user.segments`
      reads the same afterwards, so caller-set fields such as
      `params.placementId` or other `params.user` keys survive. */
  lemma AppNexusFrame(bid: map<string, Json>, list: seq<string>, p: seq<string>)
    requires AppNexus(bid, list).Ok?
    requires Diverges(p, KeywordsKeys + [SignalKey]) && Diverges(p, SegmentsKeys)
    ensures Lookup(JObj(AppNexus(bid, list).value), p) == Lookup(JObj(bid), p)
  {
    var existing := GetProp(Field(bid, "params"), "keywords").value;
    var sdRtd := SignalArray(list);
    match PutProp(existing.GetOr(JObj(map[])), SignalKey, sdRtd)
    case Throws(_) =>
    case Ok(keywords) =>
      assert keywords == NewKeywords(existing, list);
      var aliased := Aliased(bid, existing, keywords);
      AliasedFrame(bid, existing, list, p);
      match SetKeys(aliased, KeywordsKeys, keywords)
      case Throws(_) =>
      case Ok(withKeywords) =>
        if existing.Some? {
          assert Lookup(JObj(aliased), KeywordsKeys) == Some(keywords);
        }
        KeywordsWriteFrame(aliased, keywords, p);
        match SetKeys(withKeywords, SegmentsKeys, sdRtd)
        case Throws(_) =>
        case Ok(_) =>
          SetKeysFrame(withKeywords, SegmentsKeys, sdRtd, p);
  }

  /** A `params` the branch can read but not write into (a truthy primitive,
      or an object whose `keywords` is neither absent nor an object) makes the
      first write inside the `try` throw; the `catch` swallows it and the bid
      is left exactly as it was. */
  lemma AppNexusCaughtLeavesBid(bid: map<string, Json>, list: seq<string>)
    requires "params" in bid && bid["params"] != JNull
    requires !KeywordsWritable(bid)
    ensures AppNexus(bid, list) == Ok(bid)
  {
  }

  // ----------------------------------------------------------- smartadserver

  /** One target entry. */
  function TargetEntry(entry: string): string {
    "sd_rtd=" + entry
  }

  /** The `forEach` over the list: push each entry's target unless the array
      already holds it (strict equality, so only an equal string matches). */
  function AddTargets(target: seq<Json>, list: seq<string>): seq<Json>
    decreases |list|
  {
    if |list| == 0 then target
    else
      var t := JStr(TargetEntry(list[0]));
      AddTargets(if IndexOf(target, t) == -1 then target + [t] else target, list[1..])
  }

  /** What the `forEach` over the list builds: the existing entries first and
      in place, then the target of every list entry that was not yet there,
      each once and nothing else. */
  lemma {:induction false} AddTargetsSpec(target: seq<Json>, list: seq<string>)
    ensures var r := AddTargets(target, list);
            && target <= r
            && (forall i :: 0 <= i < |list| ==> JStr(TargetEntry(list[i])) in r)
            && (forall k :: |target| <= k < |r| ==> exists i :: 0 <= i < |list| && r[k] == JStr(TargetEntry(list[i])))
            && (forall k :: |target| <= k < |r| ==> r[k] !in target)
            && (forall k, l :: |target| <= k < l < |r| ==> r[k] != r[l])
    decreases |list|
  {
    if |list| > 0 {
      var t := JStr(TargetEntry(list[0]));
      var next := if IndexOf(target, t) == -1 then target + [t] else target;
      AddTargetsSpec(next, list[1..]);
      var r := AddTargets(target, list);
      assert r == AddTargets(next, list[1..]);
      assert target <= next;
      assert t in r by {
        assert t in next;
        var j := IndexOf(next, t);
        assert r[j] == next[j];
      }
      forall i | 1 <= i < |list| ensures JStr(TargetEntry(list[i])) in r {
        assert list[1..][i - 1] == list[i];
      }
      forall k | |target| <= k < |r| ensures exists i :: 0 <= i < |list| && r[k] == JStr(TargetEntry(list[i])) {
        if k < |next| {
          assert r[k] == t;
        } else {
          var i :| 0 <= i < |list[1..]| && r[k] == JStr(TargetEntry(list[1..][i]));
          assert list[1..][i] == list[i + 1];
        }
      }
      forall k | |target| <= k < |r| ensures r[k] !in target {
        if k < |next| {
          assert r[k] == t && next == target + [t];
        } else {
          assert r[k] !in next;
        }
      }
      forall k, l | |target| <= k < l < |r| ensures r[k] != r[l] {
        if k < |next| {
          assert r[k] == t && next[k] == t;
          assert r[l] !in next || l < |next|;
        }
      }
    }
  }

  /** The smartadserver branch: the current `params.target` (when defined)
      followed by one `sd_rtd=<entry>` per list entry, joined by ';', written
      through `set`, so a truthy `params.target` is never replaced. */
  function SmartAdServer(bid: map<string, Json>, list: seq<string>): (r: Result<map<string, Json>>)
    ensures r.Throws? <==> "params" !in bid || bid["params"] == JNull
    ensures r.Ok? ==> forall k :: k != "params" ==> Field(r.value, k) == Field(bid, k)
  {
    match GetProp(Field(bid, "params"), "target")
    case Throws(e) => Throws(e)
    case Ok(existing) =>
      var target := AddTargets(if existing.Some? then [existing.value] else [], list);
      match SetKeys(bid, TargetKeys, JStr(JoinValues(target, ';')))
      case Ok(written) => Ok(written)
      case Throws(_) => Ok(bid)
  }

  /** Nothing but `params.target` changes: every path that leaves it reads
      the same afterwards. */
  lemma SmartAdServerFrame(bid: map<string, Json>, list: seq<string>, p: seq<string>)
    requires SmartAdServer(bid, list).Ok?
    requires Diverges(p, TargetKeys)
    ensures Lookup(JObj(SmartAdServer(bid, list).value), p) == Lookup(JObj(bid), p)
  {
    var existing := GetProp(Field(bid, "params"), "target").value;
    var target := AddTargets(if existing.Some? then [existing.value] else [], list);
    var v := JStr(JoinValues(target, ';'));
    if SetKeys(bid, TargetKeys, v).Ok? {
      SetKeysFrame(bid, TargetKeys, v, p);
    }
  }

  /** A truthy primitive `params` makes `set(bid, 'params.target', …)` throw
      inside the `try`; the `catch` swallows it and the bid is left exactly
      as it was. */
  lemma SmartAdServerCaughtLeavesBid(bid: map<string, Json>, list: seq<string>)
    requires "params" in bid && Truthy(bid["params"]) && !bid["params"].JObj?
    ensures SmartAdServer(bid, list) == Ok(bid)
  {
  }

  /** The target entries for a list, as strings. */
  function Targets(list: seq<string>): (t: seq<string>)
    ensures |t| == |list|
    ensures forall i :: 0 <= i < |list| ==> t[i] == TargetEntry(list[i])
  {
    seq(|list|, i requires 0 <= i < |list| => TargetEntry(list[i]))
  }

  /** Distinct entries give distinct targets. */
  lemma TargetsNoDup(list: seq<string>)
    requires NoDup(list)
    ensures NoDup(Targets(list))
  {
    forall i, j | 0 <= i < j < |list|
      ensures Targets(list)[i] != Targets(list)[j]
    {
      assert list[i] == TargetEntry(list[i])[7..];
    }
  }

  /** Starting from an array holding none of them, the `forEach` pushes the
      targets of a duplicate-free list, in order. */
  lemma {:induction false} AddTargetsFresh(target: seq<Json>, list: seq<string>)
    requires NoDup(list)
    requires forall i :: 0 <= i < |list| ==> JStr(TargetEntry(list[i])) !in target
    ensures AddTargets(target, list) == target + seq(|list|, i requires 0 <= i < |list| => JStr(TargetEntry(list[i])))
    decreases |list|
  {
    var pushed := seq(|list|, i requires 0 <= i < |list| => JStr(TargetEntry(list[i])));
    if |list| == 0 {
      assert target + pushed == target;
    } else {
      var t := JStr(TargetEntry(list[0]));
      var rest := list[1..];
      forall i | 0 <= i < |rest|
        ensures JStr(TargetEntry(rest[i])) !in target + [t]
      {
        assert rest[i] == list[i + 1] && list[i + 1] != list[0];
        assert rest[i] == TargetEntry(rest[i])[7..];
      }
      assert NoDup(rest) by {
        forall i, j | 0 <= i < j < |rest| ensures rest[i] != rest[j] {
          assert rest[i] == list[i + 1] && rest[j] == list[j + 1];
        }
      }
      AddTargetsFresh(target + [t], rest);
      var pushedRest := seq(|rest|, i requires 0 <= i < |rest| => JStr(TargetEntry(rest[i])));
      assert pushed == [t] + pushedRest;
    }
  }

  /** A truthy `params.target` survives unchanged: `set` never replaces a
      truthy leaf. */
  lemma SmartAdServerKeepsTruthyTarget(bid: map<string, Json>, list: seq<string>)
    requires "params" in bid && bid["params"].JObj?
    requires "target" in bid["params"].fields && Truthy(bid["params"].fields["target"])
    ensures SmartAdServer(bid, list) == Ok(bid)
  {
    var p := bid["params"].fields;
    assert bid["params" := JObj(p)] == bid;
  }

  /** The pushed targets render as the target strings joined by the separator. */
  lemma JoinPushedTargets(list: seq<string>, sep: char)
    ensures JoinValues(seq(|list|, i requires 0 <= i < |list| => JStr(TargetEntry(list[i]))), sep)
            == Join(Targets(list), sep)
  {
    var pushed := seq(|list|, i requires 0 <= i < |list| => JStr(TargetEntry(list[i])));
    assert seq(|pushed|, i requires 0 <= i < |pushed| =>
             if pushed[i] == JNull then "" else ToJsString(pushed[i])) == Targets(list);
  }

  /** Without a previous `params.target`, the target written is every list
      entry as `sd_rtd=<entry>`, once each, joined by ';'. */
  lemma SmartAdServerFreshTarget(bid: map<string, Json>, list: seq<string>)
    requires "params" in bid && bid["params"].JObj? && "target" !in bid["params"].fields
    requires NoDup(list)
    ensures SmartAdServer(bid, list).Ok?
    ensures Lookup(JObj(SmartAdServer(bid, list).value), TargetKeys) == Some(JStr(Join(Targets(list), ';')))
    ensures NoDup(Targets(list))
  {
    AddTargetsFresh([], list);
    var pushed := seq(|list|, i requires 0 <= i < |list| => JStr(TargetEntry(list[i])));
    var target := AddTargets([], list);
    assert [] + pushed == pushed;
    JoinPushedTargets(list, ';');
    var v := JStr(JoinValues(target, ';'));
    assert v == JStr(Join(Targets(list), ';'));
    assert GetProp(Field(bid, "params"), "target") == Ok(None);
    SetKeysLeaf(bid, TargetKeys, v);
    TargetsNoDup(list);
  }

  /** Splitting the written target on ';' gives back exactly the entries'
      targets, when the list is non-empty and no entry contains ';'. */
  lemma TargetRoundTrip(list: seq<string>)
    requires |list| >= 1
    requires forall i :: 0 <= i < |list| ==> ';' !in list[i]
    ensures Split(Join(Targets(list), ';'), ';') == Targets(list)
  {
    forall i | 0 <= i < |list|
      ensures ';' !in Targets(list)[i]
    {
      var t := TargetEntry(list[i]);
      assert forall k :: 7 <= k < |t| ==> t[k] == list[i][k - 7];
    }
    SplitJoin(Targets(list), ';');
  }

  // ---------------------------------------------------------------------- ix

  /** The ix first-party data: `{sd_rtd: list}` shallow-merged over the
      configured `ix.firstPartyData` object when there is one. */
  function IxFirstPartyData(existing: Option<map<string, Json>>, list: seq<string>): (fpd: map<string, Json>)
    ensures SignalKey in fpd && fpd[SignalKey] == SignalArray(list)
    ensures existing.Some? ==> fpd.Keys == existing.value.Keys + {SignalKey}
    ensures existing.None? ==> fpd.Keys == {SignalKey}
    ensures existing.Some? ==> forall k :: k in existing.value && k != SignalKey ==> fpd[k] == existing.value[k]
  {
    existing.GetOr(map[])[SignalKey := SignalArray(list)]
  }

  /** Merging again with the same list gives the same first-party data. */
  lemma IxFirstPartyDataIdempotent(existing: Option<map<string, Json>>, list: seq<string>)
    ensures IxFirstPartyData(Some(IxFirstPartyData(existing, list)), list) == IxFirstPartyData(existing, list)
  {
  }

  /** The configuration handed to the ad unit's `setConfig`. */
  function IxConfig(fpd: map<string, Json>): Json {
    JObj(map["ix" := JObj(map["firstPartyData" := JObj(fpd)])])
  }
}

=== FILE: consent.dfy ===
/** Consent resolution in `getSegmentsAndCategories`: from the COPPA flag, the
    IAB Tech Lab U.S. Privacy string and the IAB TCF v2 consent data, choose the
    Sirdata domain, whether the request carries credentials (cookies), and the
    `gdpr` / `gdpr_consent` values sent with it; then assemble the request URL. */
module Consent {
  import opened Wrappers
  import opened Strings
  import opened JsValues

  /** Domain that may identify the user through cookies. */
  const StandardDomain := "sddan.com"
  /** Domain used when the user must not be identified: page-level data only. */
  const CookielessDomain := "cookieless-data.com"
  /** Sirdata's vendor id in the IAB Global Vendor List. */
  const SirdataVendorId := 53
  /** TCF Purpose 1 (store and/or access information on a device). */
  const StoragePurpose := 1
  /** TCF Purpose 3 (create a personalised ads profile). */
  const ProfilePurpose := 3

  /** `gdpr.vendorData`: `vendorConsents` is `vendor.consents` when `vendor`
      and its `consents` exist; `purposeConsents` is `purpose.consents` when
      both exist. Missing ids read as no consent. */
  datatype VendorData = VendorData(vendorConsents: Option<map<int, bool>>, purposeConsents: Option<map<int, bool>>)

  /** `userConsent.gdpr`. */
  datatype GdprConsent = GdprConsent(consentString: Option<string>, gdprApplies: Option<Json>, vendorData: Option<VendorData>)

  /** `userConsent`: `coppa` is its truthiness, `usp` the U.S. Privacy string. */
  datatype UserConsent = UserConsent(coppa: bool, usp: Option<string>, gdpr: Option<GdprConsent>)

  /** What the request to Sirdata is built from. */
  datatype Request = Request(domain: string, withCredentials: bool, gdprApplies: Json, tcString: string)

  /** Whether `consents[id]` is truthy. */
  predicate Consented(consents: map<int, bool>, id: int) {
    id in consents && consents[id]
  }

  /** The consent string as first read: the TCF string when truthy, otherwise ''. */
  function InitialTcString(uc: UserConsent): (s: string)
    ensures s == "" <==> uc.gdpr.None? || uc.gdpr.value.consentString.None? || uc.gdpr.value.consentString.value == ""
    ensures s != "" ==> s == uc.gdpr.value.consentString.value
  {
    match uc.gdpr
    case Some(GdprConsent(Some(cs), _, _)) => if cs != "" then cs else ""
    case _ => ""
  }

  /** `gdprApplies` as first read: the supplied value when truthy, otherwise ''. */
  function InitialGdprApplies(uc: UserConsent): (g: Json)
    ensures Truthy(g) <==> uc.gdpr.Some? && TruthyOpt(uc.gdpr.value.gdprApplies)
    ensures Truthy(g) ==> g == uc.gdpr.value.gdprApplies.value
    ensures !Truthy(g) ==> g == JStr("")
  {
    match uc.gdpr
    case Some(GdprConsent(_, Some(v), _)) => if Truthy(v) then v else JStr("")
    case _ => JStr("")
  }

  /** A U.S. Privacy string is present when it is truthy (non-empty). */
  predicate UspPresent(uc: UserConsent) {
    uc.usp.Some? && uc.usp.value != ""
  }

  /** `s[i] == c` for a string: an index past the end reads `undefined`, which
      equals no character. */
  predicate CharIs(s: string, i: nat, c: char) {
    i < |s| && s[i] == c
  }

  /** Version 1 of the U.S. Privacy string with notice not given ('N' at
      position 1) or an opt-out of sale ('Y' at position 2). */
  predicate UspOptsOut(usp: string) {
    CharIs(usp, 0, '1') && (CharIs(usp, 1, 'N') || CharIs(usp, 2, 'Y'))
  }

  /** GDPR is considered to apply: truthy and neither the string '0' nor 'null'. */
  predicate GdprInScope(g: Json) {
    Truthy(g) && g != JStr("0") && g != JStr("null")
  }

  /** The TCF data carries vendor consents, so the consent check runs. */
  predicate VendorConsentsKnown(uc: UserConsent) {
    uc.gdpr.Some? && uc.gdpr.value.vendorData.Some? && uc.gdpr.value.vendorData.value.vendorConsents.Some?
  }

  /** The consent check: Sirdata (vendor 53) has consent, and so do Purposes 1
      and 3. `Throws` when vendor 53 has consent but `purpose.consents` is
      missing, since `purpose.consents[1]` is then read from `undefined`. */
  function TcfConsentCheck(vd: VendorData): (r: Result<bool>)
    requires vd.vendorConsents.Some?
    ensures r.Throws? <==> Consented(vd.vendorConsents.value, SirdataVendorId) && vd.purposeConsents.None?
    ensures r.Ok? ==>
              (r.value <==>
                 && Consented(vd.vendorConsents.value, SirdataVendorId)
                 && Consented(vd.purposeConsents.value, StoragePurpose)
                 && Consented(vd.purposeConsents.value, ProfilePurpose))
  {
    if !Consented(vd.vendorConsents.value, SirdataVendorId) then Ok(false)
    else match vd.purposeConsents
      case None => Throws("TypeError: cannot read properties of undefined (reading 'consents')")
      case Some(p) => Ok(Consented(p, StoragePurpose) && Consented(p, ProfilePurpose))
  }

  /** The decision of `getSegmentsAndCategories`, first match wins: COPPA,
      then a U.S. Privacy string, then GDPR. An absent `userConsent` throws
      when `coppa` is read from it. */
  function Resolve(consent: Option<UserConsent>): (r: Result<Request>)
    // a missing consent object is dereferenced unguarded
    ensures consent.None? ==> r.Throws?
    // credentials are sent exactly to the domain that may use them
    ensures r.Ok? ==> (r.value.withCredentials <==> r.value.domain == StandardDomain)
    ensures r.Ok? ==> r.value.domain == StandardDomain || r.value.domain == CookielessDomain
    // COPPA wins over every other signal
    ensures consent.Some? && consent.value.coppa ==>
              r == Ok(Request(CookielessDomain, false, InitialGdprApplies(consent.value), ""))
    // without COPPA the consent string is passed through unchanged
    ensures consent.Some? && !consent.value.coppa && r.Ok? ==> r.value.tcString == InitialTcString(consent.value)
    // a U.S. Privacy string decides alone; an opt-out also forces gdpr=false
    ensures consent.Some? && !consent.value.coppa && UspPresent(consent.value) ==>
              r.Ok? &&
              (UspOptsOut(consent.value.usp.value) <==> r.value.domain == CookielessDomain) &&
              r.value.gdprApplies == (if UspOptsOut(consent.value.usp.value) then JBool(false) else InitialGdprApplies(consent.value))
    // otherwise gdprApplies is reported as first read
    ensures consent.Some? && !UspPresent(consent.value) && r.Ok? ==> r.value.gdprApplies == InitialGdprApplies(consent.value)
    // the only other throw: vendor 53 consented but purpose consents missing
    ensures r.Throws? <==>
              || consent.None?
              || (&& !consent.value.coppa
                  && !UspPresent(consent.value)
                  && GdprInScope(InitialGdprApplies(consent.value))
                  && VendorConsentsKnown(consent.value)
                  && TcfConsentCheck(consent.value.gdpr.value.vendorData.value).Throws?)
  {
    match consent
    case None => Throws("TypeError: cannot read properties of undefined (reading 'coppa')")
    case Some(uc) =>
      var tcString := InitialTcString(uc);
      var gdprApplies := InitialGdprApplies(uc);
      if uc.coppa then
        Ok(Request(CookielessDomain, false, gdprApplies, ""))
      else if UspPresent(uc) then
        if UspOptsOut(uc.usp.value) then Ok(Request(CookielessDomain, false, JBool(false), tcString))
        else Ok(Request(StandardDomain, true, gdprApplies, tcString))
      else if GdprInScope(gdprApplies) && VendorConsentsKnown(uc) then
        match TcfConsentCheck(uc.gdpr.value.vendorData.value)
        case Throws(e) => Throws(e)
        case Ok(consented) =>
          if consented then Ok(Request(StandardDomain, true, gdprApplies, tcString))
          else Ok(Request(CookielessDomain, false, gdprApplies, tcString))
      else
        Ok(Request(StandardDomain, true, gdprApplies, tcString))
  }

  /** The user may be identified when no regulation signal forbids it: no
      COPPA flag; no U.S. Privacy opt-out; and, when GDPR is in scope with
      vendor consents known and no U.S. Privacy string, consent for vendor 53
      and Purposes 1 and 3. */
  predicate MayIdentifyUser(uc: UserConsent) {
    && !uc.coppa
    && (UspPresent(uc) ==> !UspOptsOut(uc.usp.value))
    && (!UspPresent(uc) && GdprInScope(InitialGdprApplies(uc)) && VendorConsentsKnown(uc) ==>
          var vd := uc.gdpr.value.vendorData.value;
          && Consented(vd.vendorConsents.value, SirdataVendorId)
          && vd.purposeConsents.Some?
          && Consented(vd.purposeConsents.value, StoragePurpose)
          && Consented(vd.purposeConsents.value, ProfilePurpose))
  }

  /** Credentials go out exactly when every regulation signal permits
      identifying the user, whatever their priority order. */
  lemma CredentialsIffMayIdentify(uc: UserConsent)
    requires Resolve(Some(uc)).Ok?
    ensures Resolve(Some(uc)).value.withCredentials <==> MayIdentifyUser(uc)
  {
  }

  /** With a U.S. Privacy string and no COPPA flag, the TCF vendor data is never
      consulted: replacing it leaves the result unchanged. */
  lemma UspShadowsTcf(uc: UserConsent, other: Option<VendorData>)
    requires !uc.coppa && UspPresent(uc) && uc.gdpr.Some?
    ensures Resolve(Some(uc.(gdpr := Some(uc.gdpr.value.(vendorData := other))))) == Resolve(Some(uc))
  {
  }

  /** `config.params.partnerId` / `config.params.key`: the configured value when
      truthy, otherwise 1. */
  function ConfigIdOrOne(v: Option<Json>): (id: Json)
    ensures Truthy(id)
    ensures TruthyOpt(v) ==> id == v.value
  {
    if TruthyOpt(v) then v.value else JNum(1)
  }

  const UrlScheme := "https://"
  const ApiPath := "/api/v1/public/p/"

  /** `t` is a prefix of `s`. */
  predicate StartsWith(s: string, t: string) {
    |t| <= |s| && s[..|t|] == t
  }

  /** `t` is a suffix of `s`. */
  predicate EndsWith(s: string, t: string) {
    |t| <= |s| && s[|s| - |t|..] == t
  }

  /** `b` is a suffix of `a + b`. */
  lemma EndsWithAppend(a: string, b: string)
    ensures EndsWith(a + b, b)
  {
    assert (a + b)[|a|..] == b;
  }

  /** A suffix of `s` is a suffix of `a + s`. */
  lemma EndsWithPrepend(a: string, s: string, t: string)
    requires EndsWith(s, t)
    ensures EndsWith(a + s, t)
  {
    assert (a + s)[|a + s| - |t|..] == s[|s| - |t|..];
  }

  /** The request URL up to and including the `gdpr` parameter. */
  function UrlHead(req: Request, partnerId: Option<Json>, key: Option<Json>): string {
    UrlScheme + "kvt." + req.domain + ApiPath
    + (ToJsString(ConfigIdOrOne(partnerId)) + "/d/" + ToJsString(ConfigIdOrOne(key))
       + "/s?callback=&gdpr=" + ToJsString(req.gdprApplies))
  }

  /** The trailing `url` parameter: present only for a non-empty page URL. */
  function PageParam(pageUrl: Option<string>): string {
    if pageUrl.Some? && pageUrl.value != "" then "&url=" + pageUrl.value else ""
  }

  /** The request URL after the `gdpr` parameter. */
  function UrlTail(tcString: string, pageUrl: Option<string>): string {
    "&gdpr_consent=" + tcString + PageParam(pageUrl)
  }

  /** The request URL; `pageUrl` is `window.top.location.href` when it could be
      read, appended only when non-empty. */
  function RequestUrl(req: Request, partnerId: Option<Json>, key: Option<Json>, pageUrl: Option<string>): string
  {
    UrlHead(req, partnerId, key) + UrlTail(req.tcString, pageUrl)
  }

  /** The URL starts with the scheme, host and API path. */
  lemma RequestUrlStart(req: Request, partnerId: Option<Json>, key: Option<Json>, pageUrl: Option<string>)
    ensures StartsWith(RequestUrl(req, partnerId, key, pageUrl), UrlScheme + "kvt." + req.domain + ApiPath)
  {
    var prefix := UrlScheme + "kvt." + req.domain + ApiPath;
    var head := UrlHead(req, partnerId, key);
    assert head == prefix + head[|prefix|..];
    assert (head + UrlTail(req.tcString, pageUrl))[..|prefix|] == prefix;
  }

  /** The URL starts with the scheme, host and API path, and ends with the
      page URL when one is given, else with the consent string. */
  lemma RequestUrlShape(req: Request, partnerId: Option<Json>, key: Option<Json>, pageUrl: Option<string>)
    ensures StartsWith(RequestUrl(req, partnerId, key, pageUrl), UrlScheme + "kvt." + req.domain + ApiPath)
    ensures (pageUrl.None? || pageUrl.value == "") ==>
              EndsWith(RequestUrl(req, partnerId, key, pageUrl), "&gdpr_consent=" + req.tcString)
    ensures pageUrl.Some? && pageUrl.value != "" ==>
              EndsWith(RequestUrl(req, partnerId, key, pageUrl), "&url=" + pageUrl.value)
  {
    var prefix := UrlScheme + "kvt." + req.domain + ApiPath;
    var head := UrlHead(req, partnerId, key);
    var tail := UrlTail(req.tcString, pageUrl);
    assert RequestUrl(req, partnerId, key, pageUrl) == head + tail;
    RequestUrlStart(req, partnerId, key, pageUrl);
    EndsWithAppend(head, tail);
    EndsWithAppend("&gdpr_consent=" + req.tcString, PageParam(pageUrl));
    EndsWithPrepend(head, tail, PageParam(pageUrl));
    assert PageParam(pageUrl) == "" ==> tail == "&gdpr_consent=" + req.tcString;
  }

  /** The host of an `https://` URL: everything after the scheme up to the first '/'. */
  function HostOf(url: string): string
  {
    if |url| < |UrlScheme| || url[..|UrlScheme|] != UrlScheme then ""
    else
      var rest := url[|UrlScheme|..];
      var k := IndexOf(rest, '/');
      if k == -1 then rest else rest[..k]
  }

  lemma {:induction false} HostOfPrefix(url: string, host: string)
    requires '/' !in host
    requires StartsWith(url, UrlScheme + host + "/")
    ensures HostOf(url) == host
  {
    assert url[..|UrlScheme|] == UrlScheme;
    var rest := url[|UrlScheme|..];
    assert forall i :: 0 <= i < |host| ==> rest[i] == host[i];
    assert rest[|host|] == '/';
    var k := IndexOf(rest, '/');
    assert forall i :: 0 <= i < k ==> rest[..k][i] == rest[i];
    assert k == |host|;
    assert rest[..k] == host;
  }

  /** The request goes to `kvt.` on the resolved domain. */
  lemma {:induction false} RequestHost(req: Request, partnerId: Option<Json>, key: Option<Json>, pageUrl: Option<string>)
    requires '/' !in req.domain
    ensures HostOf(RequestUrl(req, partnerId, key, pageUrl)) == "kvt." + req.domain
  {
    RequestUrlStart(req, partnerId, key, pageUrl);
    KvtHost(req.domain);
    HostBeforeApiPath(RequestUrl(req, partnerId, key, pageUrl), "kvt." + req.domain);
  }

  /** Prefixing `kvt.` adds no '/'. */
  lemma KvtHost(domain: string)
    requires '/' !in domain
    ensures '/' !in "kvt." + domain
  {
    var host := "kvt." + domain;
    assert forall i :: 4 <= i < |host| ==> host[i] == domain[i - 4];
  }

  /** The host of a URL of the form `https://<host>/api/...`. */
  lemma HostBeforeApiPath(url: string, host: string)
    requires '/' !in host
    requires StartsWith(url, UrlScheme + host + ApiPath)
    ensures HostOf(url) == host
  {
    assert (UrlScheme + host + "/") == (UrlScheme + host + ApiPath)[..|UrlScheme + host| + 1];
    HostOfPrefix(url, host);
  }

  /** The request URL is its head followed by its tail. */
  lemma RequestUrlParts(req: Request, partnerId: Option<Json>, key: Option<Json>, pageUrl: Option<string>)
    ensures RequestUrl(req, partnerId, key, pageUrl) == UrlHead(req, partnerId, key) + UrlTail(req.tcString, pageUrl)
  {
  }

  /** With an empty consent string the tail is `&gdpr_consent=` and the
      page parameter. */
  lemma EmptyConsentTail(pageUrl: Option<string>)
    ensures pageUrl.Some? && pageUrl.value != "" ==> UrlTail("", pageUrl) == "&gdpr_consent=&url=" + pageUrl.value
    ensures !(pageUrl.Some? && pageUrl.value != "") ==> UrlTail("", pageUrl) == "&gdpr_consent="
  {
  }

  /** Under COPPA no consent string leaves the page: `gdpr_consent` is empty,
      followed by the page URL when one is known. */
  lemma CoppaSendsNoConsentString(uc: UserConsent, partnerId: Option<Json>, key: Option<Json>, pageUrl: Option<string>)
    requires uc.coppa
    ensures var url := RequestUrl(Resolve(Some(uc)).value, partnerId, key, pageUrl);
            if pageUrl.Some? && pageUrl.value != "" then EndsWith(url, "&gdpr_consent=&url=" + pageUrl.value)
            else EndsWith(url, "&gdpr_consent=")
  {
    var req := Resolve(Some(uc)).value;
    assert req.tcString == "";
    RequestUrlParts(req, partnerId, key, pageUrl);
    EndsWithAppend(UrlHead(req, partnerId, key), UrlTail(req.tcString, pageUrl));
    EmptyConsentTail(pageUrl);
  }


}

=== FILE: distribution.dfy ===
/** The second half of `addSegmentData`: choose the bids to touch, dispatch
    each one to its bidder's branch, and walk every ad unit in order. A
    `TypeError` thrown outside a branch's `try` escapes the walk and stops it;
    the writes already made stay in place. */
module Distribution {
  import opened Wrappers
  import opened Strings
  import opened JsValues
  import opened ObjectPath
  import opened SignalMerge
  import opened BidderPayloads

  /** One value of `config.params.custom`: a handler function (named, since
      its body is outside the model) or any other value. */
  datatype CustomEntry = Function(name: string) | Value(v: Json)

  /** The module's configuration as `addSegmentData` reads it. `None` stands
      for an unset (or falsy) option. */
  datatype Params = Params(
    minScore: Option<int>,
    bidders: Option<seq<string>>,
    adUnitCodes: Option<seq<string>>,
    custom: Option<map<string, CustomEntry>>)

  /** A bid: its bidder code, its own properties (`params` among them), and
      what `bid.getConfig('ix.firstPartyData')` answers. */
  datatype Bid = Bid(bidder: string, props: map<string, Json>, ixFirstPartyData: Option<map<string, Json>>)

  /** An ad unit; `bids` is `None` when the unit has no own `bids` property. */
  datatype AdUnit = AdUnit(code: string, bids: Option<seq<Bid>>)

  /** The branch of the `if` chain a selected bid takes. */
  datatype Handler = CustomHandler | AppNexusHandler | SmartAdServerHandler | IxHandler | RubiconHandler | NoHandler

  /** Calls into code outside the module: a custom handler run for an ad unit,
      and the ix configuration handed to `adUnit.setConfig`. */
  datatype Effect = CustomCalled(handler: string, adUnitCode: string) | IxConfigured(adUnitCode: string, config: Json)

  /** The bids of one ad unit after the walk over them. */
  datatype BidsPass = BidsPass(bids: seq<Bid>, effects: seq<Effect>, escaped: Option<string>)

  /** The ad units after the walk, the external calls made, and the error
      that escaped, if any. */
  datatype Outcome = Outcome(adUnits: seq<AdUnit>, effects: seq<Effect>, escaped: Option<string>)

  // ------------------------------------------------------------------ filter

  /** The bid filter. `bidders` is consulted first, and `adUnitCodes` only
      when `bidders` is set: with no bidder allow-list every bid is taken,
      whatever the ad-unit allow-list says. */
  predicate Selected(params: Params, bidder: string, code: string)
    ensures Selected(params, bidder, code) <==>
            params.bidders.None?
            || (bidder in params.bidders.value && (params.adUnitCodes.None? || code in params.adUnitCodes.value))
  {
    params.bidders.None?
    || (IndexOf(params.bidders.value, bidder) != -1
        && (params.adUnitCodes.None? || IndexOf(params.adUnitCodes.value, code) != -1))
  }

  /** Without a bidder allow-list the ad-unit allow-list has no effect. */
  lemma AdUnitCodesNeedBidders(params: Params, bidder: string, code: string)
    requires params.bidders.None?
    ensures Selected(params, bidder, code)
  {
  }

  /** An empty bidder allow-list is still set, and selects nothing. */
  lemma EmptyBidderListSelectsNothing(params: Params, bidder: string, code: string)
    requires params.bidders == Some([])
    ensures !Selected(params, bidder, code)
  {
  }

  // ---------------------------------------------------------------- dispatch

  /** A custom entry is truthy when it is a function or a truthy value. */
  predicate EntryTruthy(e: CustomEntry) {
    e.Function? || Truthy(e.v)
  }

  /** `config.params.custom && typeof config.params.custom[bidder] == 'function'`. */
  predicate HasCustomFunction(custom: Option<map<string, CustomEntry>>, bidder: string) {
    custom.Some? && bidder in custom.value && custom.value[bidder].Function?
  }

  /** The handler `loadCustomFunction` runs: the bidder's entry when truthy,
      otherwise the ad unit's entry when truthy. Calling a truthy value that
      is not a function, or reading from a missing `custom`, throws a
      `TypeError` that the function's own `catch` swallows. */
  function LoadCustomFunction(custom: Option<map<string, CustomEntry>>, bidder: string, code: string): (f: Option<string>)
    ensures f.Some? ==> custom.Some?
    ensures f.Some? && bidder in custom.value && EntryTruthy(custom.value[bidder]) ==> custom.value[bidder] == Function(f.value)
    ensures f.Some? && !(bidder in custom.value && EntryTruthy(custom.value[bidder])) ==>
              code in custom.value && custom.value[code] == Function(f.value)
    ensures HasCustomFunction(custom, bidder) ==> f == Some(custom.value[bidder].name)
  {
    if custom.None? then None
    else
      var c := custom.value;
      if bidder in c && EntryTruthy(c[bidder]) then
        (if c[bidder].Function? then Some(c[bidder].name) else None)
      else if code in c && EntryTruthy(c[code]) then
        (if c[code].Function? then Some(c[code].name) else None)
      else None
  }

  /** The branch a bid takes once it is selected: a custom function for its
      bidder first, then the four built-in bidders by exact name. */
  function Dispatch(params: Params, bidder: string): (h: Handler)
    ensures h == CustomHandler <==> HasCustomFunction(params.custom, bidder)
    ensures h == AppNexusHandler <==> !HasCustomFunction(params.custom, bidder) && bidder == "appnexus"
    ensures h == SmartAdServerHandler <==> !HasCustomFunction(params.custom, bidder) && bidder == "smartadserver"
    ensures h == IxHandler <==> !HasCustomFunction(params.custom, bidder) && bidder == "ix"
    ensures h == RubiconHandler <==> !HasCustomFunction(params.custom, bidder) && bidder == "rubicon"
    ensures h == NoHandler <==>
            !HasCustomFunction(params.custom, bidder) && bidder !in {"appnexus", "smartadserver", "ix", "rubicon"}
  {
    if HasCustomFunction(params.custom, bidder) then CustomHandler
    else if bidder == "appnexus" then AppNexusHandler
    else if bidder == "smartadserver" then SmartAdServerHandler
    else if bidder == "ix" then IxHandler
    else if bidder == "rubicon" then RubiconHandler
    else NoHandler
  }

  /** The custom branch always runs the bidder's own handler: the fallback to
      the ad unit's entry inside `loadCustomFunction` is never reached from
      the dispatch. */
  lemma CustomFallbackUnreachable(params: Params, bidder: string, code: string)
    requires Dispatch(params, bidder) == CustomHandler
    ensures LoadCustomFunction(params.custom, bidder, code) == Some(params.custom.value[bidder].name)
  {
  }

  /** The selected bids the walk can change: appnexus and smartadserver
      write into the bid's `params`, ix into the object `getConfig` answers. */
  predicate Rewrites(params: Params, code: string, bid: Bid) {
    Selected(params, bid.bidder, code)
    && Dispatch(params, bid.bidder) in {AppNexusHandler, SmartAdServerHandler, IxHandler}
  }

  /** The selected bids whose own properties can change: appnexus and
      smartadserver are the only branches that write into `params`. */
  predicate WritesParams(params: Params, code: string, bid: Bid) {
    Selected(params, bid.bidder, code)
    && Dispatch(params, bid.bidder) in {AppNexusHandler, SmartAdServerHandler}
  }

  /** A bid whose branch reads `bid.params.keywords` or `bid.params.target`
      outside the `try` while `params` is missing or `null`. */
  predicate Escapes(params: Params, code: string, bid: Bid) {
    WritesParams(params, code, bid) && ("params" !in bid.props || bid.props["params"] == JNull)
  }

  /** One bid, as the body of the inner `forEach` handles it. */
  function ProcessBid(code: string, bid: Bid, list: seq<string>, params: Params): (r: Result<(Bid, seq<Effect>)>)
    ensures r.Throws? <==> Escapes(params, code, bid)
    ensures r.Ok? ==> r.value.0.bidder == bid.bidder
    ensures r.Ok? ==> r.value.0.ixFirstPartyData.Some? == bid.ixFirstPartyData.Some?
    ensures r.Ok? && !Rewrites(params, code, bid) ==> r.value.0 == bid
    ensures r.Ok? && !WritesParams(params, code, bid) ==> r.value.0.props == bid.props
    ensures r.Ok? && WritesParams(params, code, bid) ==> r.value.0.ixFirstPartyData == bid.ixFirstPartyData
    ensures r.Ok? ==> forall k :: k != "params" ==> Field(r.value.0.props, k) == Field(bid.props, k)
    // the calls out of the module: one per selected custom or ix bid, none otherwise
    ensures r.Ok? && !Selected(params, bid.bidder, code) ==> r.value.1 == []
    ensures r.Ok? && Selected(params, bid.bidder, code) && Dispatch(params, bid.bidder) == CustomHandler ==>
              r.value.1 == [CustomCalled(params.custom.value[bid.bidder].name, code)]
    ensures r.Ok? && Selected(params, bid.bidder, code) && Dispatch(params, bid.bidder) == IxHandler ==>
              r.value.1 == [IxConfigured(code, IxConfig(IxFirstPartyData(bid.ixFirstPartyData, list)))]
    // `Object.assign` merges into the object `getConfig` answered, and that
    // very object is what `setConfig` receives
    ensures r.Ok? && Selected(params, bid.bidder, code) && Dispatch(params, bid.bidder) == IxHandler
            && bid.ixFirstPartyData.Some? ==>
              r.value.1 == [IxConfigured(code, IxConfig(r.value.0.ixFirstPartyData.value))]
    ensures r.Ok? && Dispatch(params, bid.bidder) !in {CustomHandler, IxHandler} ==> r.value.1 == []
  {
    if !Selected(params, bid.bidder, code) then Ok((bid, []))
    else
      match Dispatch(params, bid.bidder)
      case CustomHandler =>
        var f := LoadCustomFunction(params.custom, bid.bidder, code);
        Ok((bid, if f.Some? then [CustomCalled(f.value, code)] else []))
      case AppNexusHandler =>
        (match AppNexus(bid.props, list)
         case Ok(props) => Ok((bid.(props := props), []))
         case Throws(e) => Throws(e))
      case SmartAdServerHandler =>
        (match SmartAdServer(bid.props, list)
         case Ok(props) => Ok((bid.(props := props), []))
         case Throws(e) => Throws(e))
      case IxHandler =>
        var fpd := IxFirstPartyData(bid.ixFirstPartyData, list);
        var answered := if bid.ixFirstPartyData.Some? then Some(fpd) else None;
        Ok((bid.(ixFirstPartyData := answered), [IxConfigured(code, IxConfig(fpd))]))
      case RubiconHandler => Ok((bid, []))
      case NoHandler => Ok((bid, []))
  }

  /** What the walk may do to a bid: the same bidder, a bid it does not
      rewrite is left exactly as it was, and only appnexus and smartadserver
      bids change their own properties. */
  predicate BidFrame(params: Params, code: string, before: Bid, after: Bid) {
    after.bidder == before.bidder
    && after.ixFirstPartyData.Some? == before.ixFirstPartyData.Some?
    && (!Rewrites(params, code, before) ==> after == before)
    && (!WritesParams(params, code, before) ==> after.props == before.props)
  }

  /** Positions and suffixes of a sequence, seen from its tail. */
  lemma TailShift<T>(s: seq<T>)
    requires |s| > 0
    ensures forall i :: 1 <= i < |s| ==> s[1..][i - 1] == s[i] && s[i..] == s[1..][i - 1..]
  {
  }

  /** Suffixes of a sequence with one element put in front. */
  lemma ConsShift<T>(x: T, s: seq<T>)
    ensures forall i :: 1 <= i <= |s| ==> ([x] + s)[i..] == s[i - 1..]
  {
  }

  /** Dropping `i + 1` elements is dropping one, then `i`. */
  lemma DropShift<T>(s: seq<T>, i: nat)
    requires i < |s|
    ensures s[i + 1..] == s[1..][i..]
  {
  }

  /** The inner `forEach` over one ad unit's bids; an escaping error stops it
      and leaves the later bids untouched. */
  function ProcessBids(code: string, bids: seq<Bid>, list: seq<string>, params: Params): (p: BidsPass)
    ensures |p.bids| == |bids|
    ensures forall i :: 0 <= i < |bids| ==> BidFrame(params, code, bids[i], p.bids[i])
    ensures p.escaped.Some? <==> exists i :: 0 <= i < |bids| && Escapes(params, code, bids[i])
    ensures forall i :: 0 <= i < |bids| && Escapes(params, code, bids[i]) ==> p.bids[i..] == bids[i..]
    decreases |bids|
  {
    if |bids| == 0 then BidsPass([], [], None)
    else
      match ProcessBid(code, bids[0], list, params)
      case Throws(e) => BidsPass(bids, [], Some(e))
      case Ok(done) =>
        var rest := ProcessBids(code, bids[1..], list, params);
        TailShift(bids);
        ConsShift(done.0, rest.bids);
        BidsPass([done.0] + rest.bids, done.1 + rest.effects, rest.escaped)
  }

  /** Every call the walk over a unit's bids makes is for that unit. */
  lemma {:induction false} ProcessBidsEffectsOfUnit(code: string, bids: seq<Bid>, list: seq<string>, params: Params)
    ensures forall e :: e in ProcessBids(code, bids, list, params).effects ==> e.adUnitCode == code
    decreases |bids|
  {
    if |bids| > 0 && ProcessBid(code, bids[0], list, params).Ok? {
      ProcessBidsEffectsOfUnit(code, bids[1..], list, params);
    }
  }

  /** No bid up to and including position `i` escapes. */
  predicate NoBidEscapesUpTo(params: Params, code: string, bids: seq<Bid>, i: nat)
    requires i < |bids|
  {
    forall j :: 0 <= j <= i ==> !Escapes(params, code, bids[j])
  }

  /** Every bid up to the first escaping one is processed: the walk leaves
      in its place what its branch makes of it, and makes the calls its
      branch makes. */
  lemma {:induction false} ProcessBidsApplies(code: string, bids: seq<Bid>, list: seq<string>, params: Params, i: nat)
    requires i < |bids| && NoBidEscapesUpTo(params, code, bids, i)
    ensures ProcessBid(code, bids[i], list, params).Ok?
    ensures ProcessBids(code, bids, list, params).bids[i] == ProcessBid(code, bids[i], list, params).value.0
    ensures forall e :: e in ProcessBid(code, bids[i], list, params).value.1 ==>
              e in ProcessBids(code, bids, list, params).effects
    decreases |bids|
  {
    assert !Escapes(params, code, bids[0]);
    var first := ProcessBid(code, bids[0], list, params).value;
    var rest := ProcessBids(code, bids[1..], list, params);
    var p := ProcessBids(code, bids, list, params);
    assert p.bids == [first.0] + rest.bids && p.effects == first.1 + rest.effects;
    if i > 0 {
      TailShift(bids);
      assert NoBidEscapesUpTo(params, code, bids[1..], i - 1) by {
        forall j | 0 <= j <= i - 1
          ensures !Escapes(params, code, bids[1..][j])
        {
          assert bids[1..][j] == bids[j + 1];
        }
      }
      ProcessBidsApplies(code, bids[1..], list, params, i - 1);
    }
  }

  /** Some selected bid of the unit escapes. */
  predicate UnitEscapes(params: Params, u: AdUnit) {
    u.bids.Some? && exists j :: 0 <= j < |u.bids.value| && Escapes(params, u.code, u.bids.value[j])
  }

  /** What the walk may do to an ad unit: the same code, the same number of
      bids, each bid within its frame. */
  predicate UnitFrame(params: Params, before: AdUnit, after: AdUnit) {
    after.code == before.code
    && after.bids.Some? == before.bids.Some?
    && (before.bids.Some? ==>
          |after.bids.value| == |before.bids.value|
          && forall j :: 0 <= j < |before.bids.value| ==>
               BidFrame(params, before.code, before.bids.value[j], after.bids.value[j]))
  }

  /** The outer `forEach` over the ad units; units without an own `bids`
      property are skipped. */
  function ProcessUnits(units: seq<AdUnit>, list: seq<string>, params: Params): (o: Outcome)
    ensures |o.adUnits| == |units|
    ensures forall i :: 0 <= i < |units| ==> UnitFrame(params, units[i], o.adUnits[i])
    ensures o.escaped.Some? <==> exists i :: 0 <= i < |units| && UnitEscapes(params, units[i])
    decreases |units|
  {
    if |units| == 0 then Outcome([], [], None)
    else
      var u := units[0];
      assert forall i :: 1 <= i < |units| ==> units[1..][i - 1] == units[i];
      if u.bids.None? then
        var rest := ProcessUnits(units[1..], list, params);
        Outcome([u] + rest.adUnits, rest.effects, rest.escaped)
      else
        var p := ProcessBids(u.code, u.bids.value, list, params);
        var u' := u.(bids := Some(p.bids));
        if p.escaped.Some? then
          Outcome([u'] + units[1..], p.effects, p.escaped)
        else
          var rest := ProcessUnits(units[1..], list, params);
          Outcome([u'] + rest.adUnits, p.effects + rest.effects, rest.escaped)
  }

  /** One step of the outer walk: after the first unit, either the units are
      untouched (its bids escaped) or the walk over the rest follows. */
  lemma ProcessUnitsStep(units: seq<AdUnit>, list: seq<string>, params: Params)
    requires |units| > 0
    ensures var o := ProcessUnits(units, list, params);
            if UnitEscapes(params, units[0])
            then o.adUnits[1..] == units[1..]
            else o.adUnits[1..] == ProcessUnits(units[1..], list, params).adUnits
  {
    var u := units[0];
    var o := ProcessUnits(units, list, params);
    if u.bids.Some? {
      var p := ProcessBids(u.code, u.bids.value, list, params);
      assert p.escaped.Some? <==> UnitEscapes(params, u);
      if p.escaped.Some? {
        assert o.adUnits == [u.(bids := Some(p.bids))] + units[1..];
      } else {
        assert o.adUnits == [u.(bids := Some(p.bids))] + ProcessUnits(units[1..], list, params).adUnits;
      }
    } else {
      assert o.adUnits == [u] + ProcessUnits(units[1..], list, params).adUnits;
    }
  }

  /** No ad unit before position `i` escapes. */
  predicate NoUnitEscapesBefore(params: Params, units: seq<AdUnit>, i: nat)
    requires i <= |units|
  {
    forall j :: 0 <= j < i ==> !UnitEscapes(params, units[j])
  }

  /** Every ad unit up to the first escaping one is processed: its bids are
      what the walk over them makes, and their calls are made. */
  lemma {:induction false} ProcessUnitsApplies(units: seq<AdUnit>, list: seq<string>, params: Params, i: nat)
    requires i < |units| && units[i].bids.Some? && NoUnitEscapesBefore(params, units, i)
    ensures var p := ProcessBids(units[i].code, units[i].bids.value, list, params);
            && ProcessUnits(units, list, params).adUnits[i].bids == Some(p.bids)
            && forall e :: e in p.effects ==> e in ProcessUnits(units, list, params).effects
    decreases |units|
  {
    var u := units[0];
    var o := ProcessUnits(units, list, params);
    var rest := ProcessUnits(units[1..], list, params);
    if i > 0 {
      assert !UnitEscapes(params, u);
      ProcessUnitsStep(units, list, params);
      if u.bids.Some? {
        var p := ProcessBids(u.code, u.bids.value, list, params);
        assert o.effects == p.effects + rest.effects;
      } else {
        assert o.effects == rest.effects;
      }
      assert units[1..][i - 1] == units[i];
      assert o.adUnits[i] == rest.adUnits[i - 1] by {
        assert o.adUnits[1..][i - 1] == o.adUnits[i];
      }
      assert NoUnitEscapesBefore(params, units[1..], i - 1) by {
        forall j | 0 <= j < i - 1
          ensures !UnitEscapes(params, units[1..][j])
        {
          assert units[1..][j] == units[j + 1];
        }
      }
      ProcessUnitsApplies(units[1..], list, params, i - 1);
    }
  }

  /** The walk stops at the first escaping ad unit: every unit after one
      that escapes is left exactly as it was. */
  lemma {:induction false} ProcessUnitsStops(units: seq<AdUnit>, list: seq<string>, params: Params, i: nat)
    requires i < |units| && UnitEscapes(params, units[i])
    ensures ProcessUnits(units, list, params).adUnits[i + 1..] == units[i + 1..]
    decreases |units|
  {
    var o := ProcessUnits(units, list, params);
    ProcessUnitsStep(units, list, params);
    DropShift(o.adUnits, i);
    DropShift(units, i);
    if i > 0 && !UnitEscapes(params, units[0]) {
      assert units[1..][i - 1] == units[i];
      ProcessUnitsStops(units[1..], list, params, i - 1);
    }
  }

  /** `addSegmentData` after parsing: merge the signals, then hand the list to
      every selected bid, then call `onDone`. The only guard on the list
      negates an array, which is always truthy, so the walk runs even when
      the list is empty. `done` is whether `onDone` is
      reached at the end of the function; an escaping error skips it. */
  method AddSegmentData(adUnits: seq<AdUnit>, data: Payload, params: Params) returns (o: Outcome, m: Merged, done: bool)
    ensures m == MergedSpec(data, EffectiveThreshold(params.minScore))
    ensures o == ProcessUnits(adUnits, m.list, params)
    ensures |o.adUnits| == |adUnits|
    ensures forall i :: 0 <= i < |adUnits| ==> UnitFrame(params, adUnits[i], o.adUnits[i])
    ensures done <==> !exists i :: 0 <= i < |adUnits| && UnitEscapes(params, adUnits[i])
    // every ad unit up to the first escaping one has its bids processed
    ensures forall i :: 0 <= i < |adUnits| && adUnits[i].bids.Some? && NoUnitEscapesBefore(params, adUnits, i) ==>
              o.adUnits[i].bids == Some(ProcessBids(adUnits[i].code, adUnits[i].bids.value, m.list, params).bids)
  {
    m := MergeSignals(data, params.minScore);
    o := ProcessUnits(adUnits, m.list, params);
    done := o.escaped.None?;
    forall i | 0 <= i < |adUnits| && adUnits[i].bids.Some? && NoUnitEscapesBefore(params, adUnits, i)
      ensures o.adUnits[i].bids == Some(ProcessBids(adUnits[i].code, adUnits[i].bids.value, m.list, params).bids)
    {
      ProcessUnitsApplies(adUnits, m.list, params, i);
    }
  }

  // ------------------------------------------------------------- properties

  /** A selected appnexus bid whose `params` is falsy, or an object with
      `keywords` absent or an object, ends up with `params.keywords.sd_rtd`
      equal to the list. */
  lemma DispatchedAppNexusReceivesList(code: string, bid: Bid, list: seq<string>, params: Params)
    requires Selected(params, bid.bidder, code) && Dispatch(params, bid.bidder) == AppNexusHandler
    requires KeywordsWritable(bid.props)
    ensures ProcessBid(code, bid, list, params).Ok?
    ensures Lookup(JObj(ProcessBid(code, bid, list, params).value.0.props), KeywordsKeys + [SignalKey])
            == Some(SignalArray(list))
  {
    AppNexusKeywords(bid.props, list, "params");
  }

  /** A selected ix bid whose `getConfig` answers an object finds `sd_rtd`
      merged into that very object: afterwards it holds the list, and every
      other key keeps its value. */
  lemma IxAnswerUpdatedInPlace(code: string, bid: Bid, list: seq<string>, params: Params)
    requires Selected(params, bid.bidder, code) && Dispatch(params, bid.bidder) == IxHandler
    requires bid.ixFirstPartyData.Some?
    ensures ProcessBid(code, bid, list, params).Ok?
    ensures var after := ProcessBid(code, bid, list, params).value.0.ixFirstPartyData;
            && after.Some?
            && SignalKey in after.value && after.value[SignalKey] == SignalArray(list)
            && forall k :: k in bid.ixFirstPartyData.value && k != SignalKey ==>
                 k in after.value && after.value[k] == bid.ixFirstPartyData.value[k]
  {
  }

  /** The walk only ever writes the list into a bid: every path of the bid
      that leaves `params.keywords.sd_rtd`, `params.user.segments` and
      `params.target` reads the same afterwards. */
  lemma ProcessBidFrame(code: string, bid: Bid, list: seq<string>, params: Params, p: seq<string>)
    requires ProcessBid(code, bid, list, params).Ok?
    requires Diverges(p, KeywordsKeys + [SignalKey]) && Diverges(p, SegmentsKeys) && Diverges(p, TargetKeys)
    ensures Lookup(JObj(ProcessBid(code, bid, list, params).value.0.props), p) == Lookup(JObj(bid.props), p)
  {
    if WritesParams(params, code, bid) {
      if Dispatch(params, bid.bidder) == AppNexusHandler {
        AppNexusFrame(bid.props, list, p);
      } else {
        SmartAdServerFrame(bid.props, list, p);
      }
    }
  }

  /** A payload with no categories and no segments merges to the empty list,
      and that empty list is still written into a selected appnexus bid. */
  lemma EmptyPayloadStillDistributes(data: Payload, code: string, bid: Bid, params: Params)
    requires |data.categories| == 0 && |data.segments| == 0
    requires Selected(params, bid.bidder, code) && Dispatch(params, bid.bidder) == AppNexusHandler
    requires KeywordsWritable(bid.props)
    ensures var list := MergedSpec(data, EffectiveThreshold(params.minScore)).list;
            && list == []
            && ProcessBid(code, bid, list, params).Ok?
            && Lookup(JObj(ProcessBid(code, bid, list, params).value.0.props), KeywordsKeys + [SignalKey])
               == Some(JArr([]))
  {
    var list := MergedSpec(data, EffectiveThreshold(params.minScore)).list;
    assert list == [];
    DispatchedAppNexusReceivesList(code, bid, list, params);
    assert SignalArray(list) == JArr([]);
  }

  /** The allow-lists of the example below. */
  function ExampleParams(): Params {
    Params(None, Some(["appnexus"]), Some(["div-1"]), None)
  }

  /** A bid with an empty `params` object. */
  function BareBid(bidder: string): Bid {
    Bid(bidder, map["params" := JObj(map[])], None)
  }

  /** The bids of `div-1` in the example: only the appnexus one is written. */
  lemma AllowListExampleBids(list: seq<string>)
    ensures var p := ProcessBids("div-1", [BareBid("appnexus"), BareBid("smartadserver")], list, ExampleParams());
            && p.escaped.None?
            && p.bids[1] == BareBid("smartadserver")
            && Lookup(JObj(p.bids[0].props), KeywordsKeys + [SignalKey]) == Some(SignalArray(list))
  {
    var params := ExampleParams();
    var a := BareBid("appnexus");
    var s := BareBid("smartadserver");
    assert IndexOf(["appnexus"], "smartadserver") == -1;
    assert !Rewrites(params, "div-1", s);
    DispatchedAppNexusReceivesList("div-1", a, list, params);
    var p := ProcessBids("div-1", [a, s], list, params);
    assert [a, s][1..] == [s];
    assert p.bids[0] == ProcessBid("div-1", a, list, params).value.0;
  }

  /** With the allow-lists `bidders = ["appnexus"]` and
      `adUnitCodes = ["div-1"]`, only the appnexus bid of `div-1` is written:
      the smartadserver bid beside it and the appnexus bid of `div-2` stay as
      they were. */
  lemma AllowListExample(list: seq<string>)
    ensures var a := BareBid("appnexus");
            var units := [AdUnit("div-1", Some([a, BareBid("smartadserver")])), AdUnit("div-2", Some([a]))];
            var o := ProcessUnits(units, list, ExampleParams());
            && o.escaped.None?
            && o.adUnits[0].bids.value[1] == BareBid("smartadserver")
            && o.adUnits[1] == units[1]
            && Lookup(JObj(o.adUnits[0].bids.value[0].props), KeywordsKeys + [SignalKey]) == Some(SignalArray(list))
  {
    var params := ExampleParams();
    var a := BareBid("appnexus");
    var units := [AdUnit("div-1", Some([a, BareBid("smartadserver")])), AdUnit("div-2", Some([a]))];
    AllowListExampleBids(list);
    assert IndexOf(["div-1"], "div-2") == -1;
    assert !Rewrites(params, "div-2", a);
    var p := ProcessBids("div-1", [a, BareBid("smartadserver")], list, params);
    var o := ProcessUnits(units, list, params);
    assert !UnitEscapes(params, units[0]) && !UnitEscapes(params, units[1]);
    assert o.escaped.None?;
    assert UnitFrame(params, units[1], o.adUnits[1]);
    assert o.adUnits[1].bids.value == [a];
    assert o.adUnits[0].bids.value == p.bids;
  }
}

=== FILE: js_values.dfy ===
/** The JavaScript values the module reads and writes: consent fields, bid
    parameter bags and the signal list handed to bidders. Numbers are integers;
    `undefined` is an absent key or `Option.None`. */
module JsValues {
  import opened Wrappers
  import opened Strings

  /** A JSON-like JavaScript value. Objects are keyed by property name. */
  datatype Json =
    | JNull
    | JBool(b: bool)
    | JNum(n: int)
    | JStr(s: string)
    | JArr(items: seq<Json>)
    | JObj(fields: map<string, Json>)

  /** JavaScript truthiness: `null`, `false`, `0` and `""` are falsy; arrays
      and objects, even empty ones, are truthy. */
  predicate Truthy(j: Json)
    ensures Truthy(j) <==> j !in {JNull, JBool(false), JNum(0), JStr("")}
  {
    match j
    case JNull => false
    case JBool(b) => b
    case JNum(n) => n != 0
    case JStr(s) => s != ""
    case JArr(_) => true
    case JObj(_) => true
  }

  /** Truthiness of a possibly `undefined` value. */
  predicate TruthyOpt(o: Option<Json>) {
    o.Some? && Truthy(o.value)
  }

  /** `String(j)`, as used by `+` on strings: arrays render as their elements
      joined by ',' with `null` elements rendered empty. */
  function ToJsString(j: Json): (r: string)
    ensures j.JStr? ==> r == j.s
    ensures j.JNum? && j.n >= 0 ==> IsDigits(r) && DecimalValue(r) == j.n
    ensures j.JNum? && j.n < 0 ==> |r| >= 2 && r[0] == '-' && IsDigits(r[1..]) && DecimalValue(r[1..]) == -j.n
    ensures j.JArr? && |j.items| == 0 ==> r == ""
    ensures j.JObj? ==> r == "[object Object]"
    ensures j.JBool? ==> r == (if j.b then "true" else "false")
    ensures j.JNull? ==> r == "null"
    decreases j
  {
    match j
    case JNull => "null"
    case JBool(b) => if b then "true" else "false"
    case JNum(n) => IntToDecimal(n)
    case JStr(s) => s
    case JArr(items) =>
      Join(seq(|items|, i requires 0 <= i < |items| =>
             if items[i] == JNull then "" else ToJsString(items[i])), ',')
    case JObj(_) => "[object Object]"
  }

  /** `values.join(sep)`: `null` elements render as the empty string. */
  function JoinValues(values: seq<Json>, sep: char): string
  {
    Join(seq(|values|, i requires 0 <= i < |values| =>
           if values[i] == JNull then "" else ToJsString(values[i])), sep)
  }

  /** The signal list as the JavaScript array of strings the module hands out. */
  function SignalArray(list: seq<string>): (a: Json)
    ensures a.JArr? && |a.items| == |list|
    ensures forall i :: 0 <= i < |list| ==> a.items[i] == JStr(list[i])
  {
    JArr(seq(|list|, i requires 0 <= i < |list| => JStr(list[i])))
  }

  /** The own property `k` of an object, or `undefined`. */
  function Field(m: map<string, Json>, k: string): Option<Json> {
    if k in m then Some(m[k]) else None
  }

  /** Reading `v[k]`: a `TypeError` when `v` is `undefined` or `null`; an own
      property of an object; `undefined` on any other value. */
  function GetProp(v: Option<Json>, k: string): (r: Result<Option<Json>>)
    ensures r.Throws? <==> v.None? || v.value == JNull
    ensures r.Ok? && r.value.Some? ==> v.value.JObj? && k in v.value.fields && r.value.value == v.value.fields[k]
    ensures r.Ok? && v.value.JObj? ==> r.value == Field(v.value.fields, k)
  {
    match v
    case None => Throws("TypeError: cannot read properties of undefined")
    case Some(JNull) => Throws("TypeError: cannot read properties of null")
    case Some(JObj(m)) => Ok(Field(m, k))
    case Some(_) => Ok(None)
  }

  /** Strict-mode assignment `v[k] = x`: only objects accept a new property;
      assigning on `null` or on a primitive throws a `TypeError`. */
  function PutProp(v: Json, k: string, x: Json): (r: Result<Json>)
    ensures r.Ok? <==> v.JObj?
    ensures r.Ok? ==> r.value == JObj(v.fields[k := x])
  {
    match v
    case JObj(m) => Ok(JObj(m[k := x]))
    case _ => Throws("TypeError: cannot create property on a primitive")
  }
}

=== FILE: object_path.dfy ===
/** The module's private `set(obj, path, val)` helper: walk a dotted path,
    creating missing intermediate objects, and write the leaf only when it is
    falsy. */
module ObjectPath {
  import opened Wrappers
  import opened Strings
  import opened JsValues

  /** The value reached by following `path` through nested objects. */
  function Lookup(j: Json, path: seq<string>): Option<Json>
    decreases |path|
  {
    if |path| == 0 then Some(j)
    else if j.JObj? && path[0] in j.fields then Lookup(j.fields[path[0]], path[1..])
    else None
  }

  /** `p` leaves `q` at some position both of them have: they name disjoint places. */
  predicate Diverges(p: seq<string>, q: seq<string>)
    decreases |p|
  {
    |p| > 0 && |q| > 0 && (p[0] != q[0] || Diverges(p[1..], q[1..]))
  }

  /** Some proper prefix of `keys` reaches a truthy value that is not an object:
      the walk would have to add a property to a primitive. */
  predicate Blocked(m: map<string, Json>, keys: seq<string>) {
    exists i :: 1 <= i < |keys| && WalkStopsAt(m, keys, i)
  }

  predicate WalkStopsAt(m: map<string, Json>, keys: seq<string>, i: nat)
    requires i <= |keys|
  {
    var v := Lookup(JObj(m), keys[..i]);
    v.Some? && Truthy(v.value) && !v.value.JObj?
  }

  /** One step of the walk, `obj[key] = obj[key] || {}`. */
  function Child(m: map<string, Json>, k: string): Json {
    if k in m && Truthy(m[k]) then m[k] else JObj(map[])
  }

  /** `set` over an already split path. A `TypeError` is raised only when the
      walk meets a truthy primitive through objects that all existed, so no
      step before it changed anything: on `Throws` the object is unchanged. */
  function SetKeys(m: map<string, Json>, keys: seq<string>, val: Json): (r: Result<map<string, Json>>)
    requires |keys| >= 1
    ensures r.Ok? ==> keys[0] in r.value
    ensures r.Ok? ==> forall k :: k != keys[0] ==> Field(r.value, k) == Field(m, k)
    decreases |keys|
  {
    var k := keys[0];
    if |keys| == 1 then
      Ok(if k in m && Truthy(m[k]) then m else m[k := val])
    else
      match Child(m, k)
      case JObj(c) =>
        (match SetKeys(c, keys[1..], val)
         case Ok(c') => Ok(m[k := JObj(c')])
         case Throws(e) => Throws(e))
      case _ => Throws("TypeError: cannot create property on a primitive")
  }

  /** `set(obj, path, val)` with the path given as a dotted string. */
  function Set(m: map<string, Json>, path: string, val: Json): (r: Result<map<string, Json>>)
    ensures r.Throws? <==> Blocked(m, Split(path, '.'))
    ensures r.Ok? ==> var before := Lookup(JObj(m), Split(path, '.'));
                      Lookup(JObj(r.value), Split(path, '.')) == if TruthyOpt(before) then before else Some(val)
  {
    var keys := Split(path, '.');
    SetKeysThrowsIff(m, keys, val);
    if SetKeys(m, keys, val).Ok? then
      SetKeysLeaf(m, keys, val);
      SetKeys(m, keys, val)
    else
      SetKeys(m, keys, val)
  }

  /** `set` throws exactly when the walk would meet a truthy primitive. */
  lemma {:induction false} SetKeysThrowsIff(m: map<string, Json>, keys: seq<string>, val: Json)
    requires |keys| >= 1
    ensures SetKeys(m, keys, val).Throws? <==> Blocked(m, keys)
    decreases |keys|
  {
    var k := keys[0];
    assert keys[..1] == [k];
    if |keys| > 1 {
      var c := Child(m, k);
      if !c.JObj? {
        assert WalkStopsAt(m, keys, 1);
      } else {
        SetKeysThrowsIff(c.fields, keys[1..], val);
        if k in m && Truthy(m[k]) {
          // the walk continues inside the existing object at `k`
          forall i | 1 <= i < |keys|
            ensures WalkStopsAt(m, keys, i) <==> (i >= 2 && WalkStopsAt(c.fields, keys[1..], i - 1))
          {
            assert keys[..i][0] == k;
            assert keys[..i][1..] == keys[1..][..i - 1];
            assert JObj(c.fields) == m[k];
            assert Lookup(JObj(m), keys[..i]) == Lookup(m[k], keys[1..][..i - 1]);
          }
          if Blocked(c.fields, keys[1..]) {
            var i :| 1 <= i < |keys[1..]| && WalkStopsAt(c.fields, keys[1..], i);
            assert WalkStopsAt(m, keys, i + 1);
          }
        } else {
          // a fresh empty object: nothing below `k` exists to block the walk
          forall i | 1 <= i < |keys|
            ensures !WalkStopsAt(m, keys, i)
          {
            assert keys[..i][0] == k;
            assert keys[..i][1..] == keys[1..][..i - 1];
            if k in m {
              assert Lookup(JObj(m), keys[..i]) == Lookup(m[k], keys[1..][..i - 1]);
            }
          }
          forall i | 1 <= i < |keys[1..]|
            ensures !WalkStopsAt(c.fields, keys[1..], i)
          {
            assert Lookup(JObj(c.fields), keys[1..][..i]) == None;
          }
        }
      }
    }
  }

  /** After a successful `set` the leaf holds `val` when it was falsy or
      missing, and keeps its old value when it was truthy. */
  lemma {:induction false} SetKeysLeaf(m: map<string, Json>, keys: seq<string>, val: Json)
    requires |keys| >= 1
    requires SetKeys(m, keys, val).Ok?
    ensures var old_ := Lookup(JObj(m), keys);
            Lookup(JObj(SetKeys(m, keys, val).value), keys) == if TruthyOpt(old_) then old_ else Some(val)
    decreases |keys|
  {
    var k := keys[0];
    if |keys| > 1 {
      var c := Child(m, k);
      SetKeysLeaf(c.fields, keys[1..], val);
      if !(k in m && Truthy(m[k])) {
        assert Lookup(JObj(m), keys) == None by {
          if k in m { assert !m[k].JObj?; }
        }
        assert Lookup(JObj(c.fields), keys[1..]) == None;
      }
    }
  }

  /** After a successful `set` every proper prefix of the path names an object. */
  lemma {:induction false} SetKeysCreatesIntermediates(m: map<string, Json>, keys: seq<string>, val: Json, i: nat)
    requires |keys| >= 1 && 1 <= i < |keys|
    requires SetKeys(m, keys, val).Ok?
    ensures var v := Lookup(JObj(SetKeys(m, keys, val).value), keys[..i]);
            v.Some? && v.value.JObj?
    decreases |keys|
  {
    var k := keys[0];
    var c := Child(m, k);
    assert keys[..i][1..] == keys[1..][..i - 1];
    if i > 1 {
      SetKeysCreatesIntermediates(c.fields, keys[1..], val, i - 1);
    }
  }

  /** Nothing outside the path changes: every place that diverges from the
      path reads the same before and after. */
  lemma {:induction false} SetKeysFrame(m: map<string, Json>, keys: seq<string>, val: Json, p: seq<string>)
    requires |keys| >= 1
    requires SetKeys(m, keys, val).Ok?
    requires Diverges(p, keys)
    ensures Lookup(JObj(SetKeys(m, keys, val).value), p) == Lookup(JObj(m), p)
    decreases |keys|
  {
    var k := keys[0];
    var r := SetKeys(m, keys, val).value;
    if p[0] != k {
      assert Field(r, p[0]) == Field(m, p[0]);
    } else {
      var c := Child(m, k);
      SetKeysFrame(c.fields, keys[1..], val, p[1..]);
      if !(k in m && Truthy(m[k])) {
        assert Lookup(JObj(c.fields), p[1..]) == None;
        if k in m { assert !m[k].JObj?; }
      }
    }
  }

  /** Repeating a successful `set` with the same value changes nothing more. */
  lemma {:induction false} SetKeysIdempotent(m: map<string, Json>, keys: seq<string>, val: Json)
    requires |keys| >= 1
    requires SetKeys(m, keys, val).Ok?
    ensures SetKeys(SetKeys(m, keys, val).value, keys, val) == SetKeys(m, keys, val)
    decreases |keys|
  {
    var k := keys[0];
    var r := SetKeys(m, keys, val).value;
    if |keys| == 1 {
      if !(k in m && Truthy(m[k])) {
        assert r[k] == val;
        if !Truthy(val) {
          assert r[k := val] == r;
        }
      }
    } else {
      var c := Child(m, k);
      var c' := SetKeys(c.fields, keys[1..], val).value;
      SetKeysIdempotent(c.fields, keys[1..], val);
      assert r[k] == JObj(c');
      assert Child(r, k) == JObj(c');
      assert r[k := JObj(c')] == r;
    }
  }

  /** Reading along `a + b` is reading `b` from the value at `a`. */
  lemma {:induction false} LookupAppend(j: Json, a: seq<string>, b: seq<string>)
    ensures Lookup(j, a + b) == match Lookup(j, a)
                                case Some(v) => Lookup(v, b)
                                case None => None
    decreases |a|
  {
    if |a| > 0 {
      assert (a + b)[0] == a[0];
      assert (a + b)[1..] == a[1..] + b;
      if j.JObj? && a[0] in j.fields {
        LookupAppend(j.fields[a[0]], a[1..], b);
      }
    } else {
      assert a + b == b;
    }
  }

  /** A path that leaves `q + [k]` but not `q` runs through `q` and then
      takes a key other than `k`. */
  lemma {:induction false} DivergesBelow(p: seq<string>, q: seq<string>, k: string)
    requires Diverges(p, q + [k]) && !Diverges(p, q)
    ensures |p| > |q| && p[..|q|] == q && p[|q|] != k
    decreases |q|
  {
    if |q| > 0 {
      assert (q + [k])[0] == q[0];
      assert (q + [k])[1..] == q[1..] + [k];
      DivergesBelow(p[1..], q[1..], k);
      assert p[..|q|] == [p[0]] + p[1..][..|q| - 1];
    }
  }
}

=== FILE: signal_merge.dfy ===
/** The first half of `addSegmentData`: the contextual categories scoring at
    least the relevancy threshold, then the user segments, merged into one
    duplicate-free list in which the first occurrence wins. */
module SignalMerge {
  import opened Wrappers
  import opened Strings

  /** Threshold used when `contextualMinRelevancyScore` is unset or falsy. */
  const DefaultMinRelevancyScore := 30

  /** The data handed to `addSegmentData`: `contextual_categories` as
      (category, relevancy score) entries and `segments` as (entry key,
      segment code) entries, in iteration order. A missing section is an
      empty sequence, which the code treats the same way. */
  datatype Payload = Payload(categories: seq<(string, int)>, segments: seq<(string, string)>)

  /** The merged list and the two sublists it is made of. */
  datatype Merged = Merged(list: seq<string>, categories: seq<string>, segments: seq<string>)

  /** `contextualMinRelevancyScore` after defaulting: any falsy value (unset or
      0) becomes 30, so the threshold is never falsy and the guard on it
      before the category pass always holds. */
  function EffectiveThreshold(minScore: Option<int>): (t: int)
    ensures t != 0
    ensures minScore.Some? && minScore.value != 0 ==> t == minScore.value
    ensures minScore.None? || minScore.value == 0 ==> t == DefaultMinRelevancyScore
  {
    if minScore.Some? && minScore.value != 0 then minScore.value else DefaultMinRelevancyScore
  }

  /** Categories whose score reaches the threshold, in entry order, repeats kept. */
  function Qualifying(cats: seq<(string, int)>, threshold: int): (q: seq<string>)
    ensures |q| <= |cats|
    decreases |cats|
  {
    if |cats| == 0 then []
    else
      var n := |cats| - 1;
      var q := Qualifying(cats[..n], threshold);
      if cats[n].1 >= threshold then q + [cats[n].0] else q
  }

  /** No category qualifies exactly when every score is below the threshold,
      and every entry qualifies exactly when every score reaches it. */
  lemma {:induction false} QualifyingExtremes(cats: seq<(string, int)>, threshold: int)
    ensures Qualifying(cats, threshold) == [] <==> forall i :: 0 <= i < |cats| ==> cats[i].1 < threshold
    ensures |Qualifying(cats, threshold)| == |cats| <==> forall i :: 0 <= i < |cats| ==> cats[i].1 >= threshold
    decreases |cats|
  {
    if |cats| > 0 {
      var n := |cats| - 1;
      QualifyingExtremes(cats[..n], threshold);
      assert forall i :: 0 <= i < n ==> cats[..n][i] == cats[i];
    }
  }

  /** A category qualifies exactly when one of its entries reaches the threshold. */
  lemma {:induction false} QualifyingMembers(cats: seq<(string, int)>, threshold: int, c: string)
    ensures c in Qualifying(cats, threshold) <==> exists i :: 0 <= i < |cats| && cats[i].0 == c && cats[i].1 >= threshold
    decreases |cats|
  {
    if |cats| > 0 {
      var n := |cats| - 1;
      QualifyingMembers(cats[..n], threshold, c);
      assert forall i :: 0 <= i < n ==> cats[..n][i] == cats[i];
      if exists i :: 0 <= i < |cats| && cats[i].0 == c && cats[i].1 >= threshold {
        var i :| 0 <= i < |cats| && cats[i].0 == c && cats[i].1 >= threshold;
        if i < n {
          assert cats[..n][i].0 == c;
        }
      }
    }
  }

  lemma QualifyingStep(cats: seq<(string, int)>, i: nat, threshold: int)
    requires i < |cats|
    ensures Qualifying(cats[..i + 1], threshold)
            == Qualifying(cats[..i], threshold) + (if cats[i].1 >= threshold then [cats[i].0] else [])
  {
    assert cats[..i + 1][..i] == cats[..i];
  }

  /** One pass of the category loop keeps `list` equal to the merge of the
      qualifying entries seen so far. */
  lemma CategoryStep(cats: seq<(string, int)>, i: nat, threshold: int, list: seq<string>)
    requires i < |cats|
    requires list == KeepFirst(Qualifying(cats[..i], threshold))
    ensures cats[i].1 >= threshold && cats[i].0 !in list ==>
              KeepFirst(Qualifying(cats[..i + 1], threshold)) == list + [cats[i].0]
    ensures !(cats[i].1 >= threshold && cats[i].0 !in list) ==>
              KeepFirst(Qualifying(cats[..i + 1], threshold)) == list
  {
    var before := Qualifying(cats[..i], threshold);
    QualifyingStep(cats, i, threshold);
    if cats[i].1 >= threshold {
      KeepFirstMembers(before, cats[i].0);
      KeepFirstSnoc(before, cats[i].0);
    } else {
      assert before + [] == before;
    }
  }

  /** One pass of the segment loop keeps `list` equal to the merge of the
      qualifying categories and the segment codes seen so far. */
  lemma SegmentStep(q: seq<string>, codes: seq<string>, j: nat, list: seq<string>)
    requires j < |codes|
    requires list == KeepFirst(q + codes[..j])
    ensures codes[j] !in list ==> KeepFirst(q + codes[..j + 1]) == list + [codes[j]]
    ensures codes[j] in list ==> KeepFirst(q + codes[..j + 1]) == list
  {
    assert q + codes[..j + 1] == (q + codes[..j]) + [codes[j]];
    KeepFirstMembers(q + codes[..j], codes[j]);
    KeepFirstSnoc(q + codes[..j], codes[j]);
  }

  /** The segment codes, in entry order, repeats kept. */
  function SegmentCodes(segs: seq<(string, string)>): (codes: seq<string>)
    ensures |codes| == |segs|
    ensures forall i :: 0 <= i < |segs| ==> codes[i] == segs[i].1
  {
    seq(|segs|, i requires 0 <= i < |segs| => segs[i].1)
  }

  /** The reference definition of the merge: every element of `s` at its first
      occurrence, later repeats dropped. */
  function KeepFirst(s: seq<string>): seq<string>
    decreases |s|
  {
    if |s| == 0 then []
    else
      var p := s[..|s| - 1];
      var x := s[|s| - 1];
      assert s == p + [x];
      var r := KeepFirst(p);
      if x in p then r else r + [x]
  }

  /** The merge keeps exactly the elements of its input. */
  lemma {:induction false} KeepFirstMembers(s: seq<string>, x: string)
    ensures x in KeepFirst(s) <==> x in s
    decreases |s|
  {
    if |s| > 0 {
      var p := s[..|s| - 1];
      KeepFirstMembers(p, x);
      assert s == p + [s[|s| - 1]];
    }
  }

  /** The merge never lists an element twice. */
  lemma {:induction false} KeepFirstNoDup(s: seq<string>)
    ensures NoDup(KeepFirst(s))
    decreases |s|
  {
    if |s| > 0 {
      var p := s[..|s| - 1];
      KeepFirstNoDup(p);
      KeepFirstMembers(p, s[|s| - 1]);
      assert s == p + [s[|s| - 1]];
    }
  }

  /** Appending one element to the input appends it to the merge unless it
      is already there. */
  lemma KeepFirstSnoc(s: seq<string>, x: string)
    ensures KeepFirst(s + [x]) == if x in s then KeepFirst(s) else KeepFirst(s) + [x]
  {
    assert (s + [x])[..|s + [x]| - 1] == s;
  }

  /** Elements of `r` appear in the order in which they first occur in `s`. */
  predicate InFirstOccurrenceOrder(r: seq<string>, s: seq<string>) {
    forall i, j :: 0 <= i < j < |r| ==> IndexOf(s, r[i]) < IndexOf(s, r[j])
  }

  /** First-occurrence order: the merged list orders its elements by where each
      first occurs in the input. */
  lemma {:induction false} KeepFirstOrder(s: seq<string>)
    ensures InFirstOccurrenceOrder(KeepFirst(s), s)
    decreases |s|
  {
    if |s| > 0 {
      var n := |s| - 1;
      var p := s[..n];
      var x := s[n];
      var r' := KeepFirst(p);
      var r := KeepFirst(s);
      KeepFirstOrder(p);
      assert InFirstOccurrenceOrder(r', p);
      assert s == p + [x];
      if x !in p {
        assert x !in s[..n];
        assert IndexOf(s, x) == n;
        assert r == r' + [x];
        forall i, j | 0 <= i < j < |r|
          ensures IndexOf(s, r[i]) < IndexOf(s, r[j])
        {
          KeepFirstMembers(p, r'[i]);
          assert r[i] == r'[i] && r'[i] in p;
          IndexOfPrefix(s, n, r'[i]);
          if j < |r'| {
            KeepFirstMembers(p, r'[j]);
            assert r[j] == r'[j] && r'[j] in p;
            IndexOfPrefix(s, n, r'[j]);
            assert IndexOf(p, r'[i]) < IndexOf(p, r'[j]);
          } else {
            assert r[j] == x;
          }
        }
      } else {
        assert r == r';
        forall i, j | 0 <= i < j < |r|
          ensures IndexOf(s, r[i]) < IndexOf(s, r[j])
        {
          KeepFirstMembers(p, r'[i]);
          KeepFirstMembers(p, r'[j]);
          assert r'[i] in p && r'[j] in p;
          IndexOfPrefix(s, n, r'[i]);
          IndexOfPrefix(s, n, r'[j]);
          assert IndexOf(p, r'[i]) < IndexOf(p, r'[j]);
        }
      }
    }
  }

  /** Merging a concatenation starts with the merge of its first part. */
  lemma {:induction false} KeepFirstPrefix(a: seq<string>, b: seq<string>)
    ensures |KeepFirst(a)| <= |KeepFirst(a + b)|
    ensures KeepFirst(a + b)[..|KeepFirst(a)|] == KeepFirst(a)
    decreases |b|
  {
    if |b| == 0 {
      assert a + b == a;
    } else {
      var n := |b| - 1;
      KeepFirstPrefix(a, b[..n]);
      assert (a + b)[..|a + b| - 1] == a + b[..n];
    }
  }

  /** The reference merge: qualifying categories then segment codes, first
      occurrence wins; `categories` is the part contributed by the categories. */
  function MergedSpec(data: Payload, threshold: int): (m: Merged)
    ensures m.list == m.categories + m.segments
    ensures NoDup(m.list)
  {
    var q := Qualifying(data.categories, threshold);
    var all := KeepFirst(q + SegmentCodes(data.segments));
    var cats := KeepFirst(q);
    KeepFirstPrefix(q, SegmentCodes(data.segments));
    KeepFirstNoDup(q + SegmentCodes(data.segments));
    assert all == cats + all[|cats|..];
    Merged(all, cats, all[|cats|..])
  }

  /** What each sublist holds: a category iff one of its entries reaches the
      threshold; a segment iff it is a segment code not already kept as a
      category. */
  lemma MergedMembers(data: Payload, threshold: int, x: string)
    ensures var m := MergedSpec(data, threshold);
            && (x in m.categories <==> exists i :: 0 <= i < |data.categories| && data.categories[i].0 == x && data.categories[i].1 >= threshold)
            && (x in m.segments <==> x in SegmentCodes(data.segments) && x !in m.categories)
            && (x in m.list <==> x in m.categories || x in m.segments)
  {
    var m := MergedSpec(data, threshold);
    var q := Qualifying(data.categories, threshold);
    var s := SegmentCodes(data.segments);
    QualifyingMembers(data.categories, threshold, x);
    KeepFirstMembers(q, x);
    KeepFirstMembers(q + s, x);
    assert x in q + s <==> x in q || x in s;
  }

  /** The loops of `addSegmentData` building `list`, `categories` and
      `segments`: each category entry is kept when its score reaches the
      threshold and it is not yet listed; each segment when it is not yet
      listed. */
  method MergeSignals(data: Payload, minScore: Option<int>) returns (m: Merged)
    ensures m == MergedSpec(data, EffectiveThreshold(minScore))
  {
    var threshold := EffectiveThreshold(minScore);
    var list, categories := MergeCategories(data.categories, threshold);
    var segments;
    list, segments := MergeSegments(Qualifying(data.categories, threshold), data.segments, list);
    MergedSpecFrom(data, threshold, list, categories, segments);
    m := Merged(list, categories, segments);
  }

  /** The first loop: qualifying categories not yet listed are pushed to
      both `list` and `categories`. */
  method MergeCategories(cats: seq<(string, int)>, threshold: int) returns (list: seq<string>, categories: seq<string>)
    ensures list == KeepFirst(Qualifying(cats, threshold))
    ensures categories == list
  {
    list := [];
    categories := [];
    var i := 0;
    while i < |cats|
      invariant 0 <= i <= |cats|
      invariant list == KeepFirst(Qualifying(cats[..i], threshold))
      invariant categories == list
    {
      var cat := cats[i].0;
      var value := cats[i].1;
      CategoryStep(cats, i, threshold, list);
      if value >= threshold && IndexOf(list, cat) == -1 {
        list := list + [cat];
        categories := categories + [cat];
      }
      i := i + 1;
    }
    assert cats[..i] == cats;
  }

  /** The second loop: segment codes not yet listed are pushed to both
      `list` and `segments`. */
  method MergeSegments(q: seq<string>, segs: seq<(string, string)>, start: seq<string>) returns (list: seq<string>, segments: seq<string>)
    requires start == KeepFirst(q)
    ensures list == KeepFirst(q + SegmentCodes(segs))
    ensures list == start + segments
  {
    list := start;
    segments := [];
    var codes := SegmentCodes(segs);
    var j := 0;
    assert q + codes[..0] == q;
    while j < |segs|
      invariant 0 <= j <= |segs|
      invariant list == KeepFirst(q + codes[..j])
      invariant list == start + segments
    {
      var segment := segs[j].1;
      assert segment == codes[j];
      SegmentStep(q, codes, j, list);
      if IndexOf(list, segment) == -1 {
        assert (start + segments) + [segment] == start + (segments + [segment]);
        list := list + [segment];
        segments := segments + [segment];
      }
      j := j + 1;
    }
    assert codes[..j] == codes;
  }

  /** The reference merge, recognised from its three parts. */
  lemma MergedSpecFrom(data: Payload, threshold: int, list: seq<string>, categories: seq<string>, segments: seq<string>)
    requires categories == KeepFirst(Qualifying(data.categories, threshold))
    requires list == KeepFirst(Qualifying(data.categories, threshold) + SegmentCodes(data.segments))
    requires list == categories + segments
    ensures MergedSpec(data, threshold) == Merged(list, categories, segments)
  {
    assert list[|categories|..] == segments;
  }

  /** The worked example: IAB1 (50) kept, IAB2 (10) under the default threshold
      of 30, then segments S1 and S2. */
  lemma MergeExample()
    ensures MergedSpec(Payload([("IAB1", 50), ("IAB2", 10)], [("a", "S1"), ("b", "S2")]), EffectiveThreshold(None)).list
            == ["IAB1", "S1", "S2"]
  {
    var data := Payload([("IAB1", 50), ("IAB2", 10)], [("a", "S1"), ("b", "S2")]);
    var q := Qualifying(data.categories, 30);
    var segs := SegmentCodes(data.segments);
    assert q == ["IAB1"] by {
      assert data.categories[..1] == [("IAB1", 50)];
      assert |data.categories[..1][..0]| == 0;
    }
    assert segs == ["S1", "S2"];
    KeepFirstThree("IAB1", "S1", "S2");
  }

  /** Three distinct codes are all kept, in order. */
  lemma KeepFirstThree(a: string, b: string, c: string)
    requires a != b && a != c && b != c
    ensures KeepFirst([a] + [b, c]) == [a, b, c]
  {
    KeepFirstSnoc([], a);
    KeepFirstSnoc([a], b);
    KeepFirstSnoc([a, b], c);
    assert [a] + [b, c] == [a, b] + [c];
    assert [a, b] == [a] + [b];
    assert [a] == [] + [a];
  }

}

=== FILE: strings.dfy ===
/** Sequence and string primitives of the JavaScript runtime that the module
    relies on: `indexOf`, `join`, `split` on one character, and the decimal
    rendering of integers. */
module Strings {

  /** No element occurs twice. */
  predicate NoDup<T(==)>(s: seq<T>) {
    forall i, j :: 0 <= i < j < |s| ==> s[i] != s[j]
  }

  /** `Array.prototype.indexOf` / `String.prototype.indexOf` for one element:
      the first position of `x` in `s`, or -1. */
  function IndexOf<T(==)>(s: seq<T>, x: T): (k: int)
    ensures -1 <= k < |s|
    ensures k == -1 <==> x !in s
    ensures 0 <= k ==> s[k] == x && x !in s[..k]
  {
    if |s| == 0 then -1
    else if s[0] == x then 0
    else
      var k := IndexOf(s[1..], x);
      assert s == [s[0]] + s[1..];
      if k == -1 then -1
      else
        assert s[..k + 1] == [s[0]] + s[1..][..k];
        k + 1
  }

  /** The first occurrence of `x` in a prefix is its first occurrence in the whole. */
  lemma {:induction false} IndexOfPrefix<T>(s: seq<T>, m: nat, x: T)
    requires m <= |s|
    requires x in s[..m]
    ensures IndexOf(s, x) == IndexOf(s[..m], x)
  {
    var k := IndexOf(s, x);
    var k' := IndexOf(s[..m], x);
    assert forall i :: 0 <= i < k ==> s[..k][i] == s[i];
    assert forall i :: 0 <= i < k' ==> s[..m][..k'][i] == s[i];
    assert s[..m][k'] == s[k'];
  }

  /** `Array.prototype.join(sep)` over strings. */
  function Join(parts: seq<string>, sep: char): (r: string)
    ensures |parts| == 0 ==> r == ""
    decreases |parts|
  {
    if |parts| == 0 then ""
    else if |parts| == 1 then parts[0]
    else parts[0] + [sep] + Join(parts[1..], sep)
  }

  /** A join starts with the first part and holds nothing but the separator
      and the parts' characters. */
  lemma {:induction false} JoinChars(parts: seq<string>, sep: char)
    ensures |parts| >= 1 ==> parts[0] <= Join(parts, sep)
    ensures forall c :: c in Join(parts, sep) ==> c == sep || exists i :: 0 <= i < |parts| && c in parts[i]
    decreases |parts|
  {
    if |parts| > 1 {
      assert Join(parts, sep) == parts[0] + ([sep] + Join(parts[1..], sep));
      JoinChars(parts[1..], sep);
      forall c | c in Join(parts, sep)
        ensures c == sep || exists i :: 0 <= i < |parts| && c in parts[i]
      {
        if c != sep && c !in parts[0] {
          assert c in Join(parts[1..], sep);
          var i :| 0 <= i < |parts[1..]| && c in parts[1..][i];
          assert c in parts[i + 1];
        }
      }
    }
  }

  /** `String.prototype.split(sep)` for a one-character separator: the pieces
      between separators, at least one. */
  function Split(s: string, sep: char): (parts: seq<string>)
    ensures |parts| >= 1
    ensures forall i :: 0 <= i < |parts| ==> sep !in parts[i]
    decreases |s|
  {
    var k := IndexOf(s, sep);
    if k == -1 then [s]
    else
      var rest := Split(s[k + 1..], sep);
      PrependPart(s[..k], rest, sep);
      [s[..k]] + rest
  }

  /** Putting a separator-free part in front keeps every part separator-free. */
  lemma PrependPart(head: string, rest: seq<string>, sep: char)
    requires sep !in head
    requires forall i :: 0 <= i < |rest| ==> sep !in rest[i]
    ensures forall i :: 0 <= i < |rest| + 1 ==> sep !in ([head] + rest)[i]
  {
    forall i | 0 <= i < |rest| + 1
      ensures sep !in ([head] + rest)[i]
    {
      if i > 0 {
        assert ([head] + rest)[i] == rest[i - 1];
      }
    }
  }

  /** One step of `Split`: the piece before the first separator, then the
      split of the rest. */
  lemma SplitStep(s: string, sep: char, k: int)
    requires k == IndexOf(s, sep) && k != -1
    ensures Split(s, sep) == [s[..k]] + Split(s[k + 1..], sep)
  {
    var rest := Split(s[k + 1..], sep);
    assert Split(s, sep) == [s[..k]] + rest;
  }

  /** One step of `Join` over at least two parts. */
  lemma JoinStep(head: string, rest: seq<string>, sep: char)
    requires |rest| >= 1
    ensures Join([head] + rest, sep) == head + [sep] + Join(rest, sep)
  {
    assert ([head] + rest)[1..] == rest;
  }

  /** Joining the pieces of a split restores the string. */
  lemma {:induction false} JoinSplit(s: string, sep: char)
    ensures Join(Split(s, sep), sep) == s
    decreases |s|
  {
    var k := IndexOf(s, sep);
    if k == -1 {
      assert Split(s, sep) == [s];
    } else {
      var rest := Split(s[k + 1..], sep);
      calc {
        Join(Split(s, sep), sep);
      == { SplitStep(s, sep, k); }
        Join([s[..k]] + rest, sep);
      == { JoinStep(s[..k], rest, sep); }
        s[..k] + [sep] + Join(rest, sep);
      == { JoinSplit(s[k + 1..], sep); }
        s[..k] + [sep] + s[k + 1..];
      == { assert s == s[..k] + [sep] + s[k + 1..]; }
        s;
      }
    }
  }

  /** The first separator of `head + [sep] + tail` is the one after a
      separator-free `head`. */
  lemma SplitAtFirst(head: string, tail: string, sep: char)
    requires sep !in head
    ensures Split(head + [sep] + tail, sep) == [head] + Split(tail, sep)
  {
    var s := head + [sep] + tail;
    var k := IndexOf(s, sep);
    assert s[|head|] == sep;
    var t := s[..|head| + 1];
    assert t == head + [sep];
    IndexOfPrefix(s, |head| + 1, sep);
    assert forall j :: 0 <= j < |head| ==> t[j] == head[j];
    assert k == |head|;
    assert s[..k] == head;
    assert s[k + 1..] == tail;
    SplitStep(s, sep, k);
  }

  /** Splitting a join of separator-free pieces gives the pieces back. */
  lemma {:induction false} SplitJoin(parts: seq<string>, sep: char)
    requires |parts| >= 1
    requires forall i :: 0 <= i < |parts| ==> sep !in parts[i]
    ensures Split(Join(parts, sep), sep) == parts
  {
    if |parts| > 1 {
      var head := parts[0];
      var tail := Join(parts[1..], sep);
      JoinStep(head, parts[1..], sep);
      assert parts == [head] + parts[1..];
      SplitAtFirst(head, tail, sep);
      SplitJoin(parts[1..], sep);
    }
  }

  /** The decimal digit for `d`. */
  function DigitChar(d: int): (c: char)
    requires 0 <= d < 10
    ensures '0' <= c <= '9'
  {
    ('0' as int + d) as char
  }

  predicate IsDigits(s: string) {
    forall i :: 0 <= i < |s| ==> '0' <= s[i] <= '9'
  }

  /** The number a string of decimal digits denotes. */
  function DecimalValue(s: string): nat
    requires IsDigits(s)
    decreases |s|
  {
    if |s| == 0 then 0
    else DecimalValue(s[..|s| - 1]) * 10 + (s[|s| - 1] as int - '0' as int)
  }

  /** `String(n)` for a non-negative integer: digits, no leading zero. */
  function NatToDecimal(n: nat): (s: string)
    ensures |s| >= 1 && IsDigits(s)
    ensures s[0] == '0' ==> s == "0"
    decreases n
  {
    if n < 10 then [DigitChar(n)] else NatToDecimal(n / 10) + [DigitChar(n % 10)]
  }

  /** Reading back the rendered digits gives the number. */
  lemma {:induction false} DecimalRoundTrip(n: nat)
    ensures DecimalValue(NatToDecimal(n)) == n
    decreases n
  {
    if n >= 10 {
      DecimalRoundTrip(n / 10);
      var s := NatToDecimal(n);
      assert s[..|s| - 1] == NatToDecimal(n / 10);
    }
  }

  /** `String(n)` for an integer (a leading '-' for negatives). */
  function IntToDecimal(n: int): (s: string)
    ensures n >= 0 ==> IsDigits(s) && DecimalValue(s) == n
    ensures n < 0 ==> |s| >= 2 && s[0] == '-' && IsDigits(s[1..]) && DecimalValue(s[1..]) == -n
  {
    if n < 0 then
      DecimalRoundTrip(-n);
      assert ("-" + NatToDecimal(-n))[1..] == NatToDecimal(-n);
      "-" + NatToDecimal(-n)
    else
      DecimalRoundTrip(n);
      NatToDecimal(n)
  }
}

=== FILE: wrappers.dfy ===
/** Optional values and JavaScript-style outcomes shared by every module of the model. */
module Wrappers {

  /** `undefined` versus a present value. */
  datatype Option<+T> = None | Some(value: T) {

    /** The present value, or `default` when absent. */
    function GetOr(default: T): T {
      match this
      case Some(v) => v
      case None => default
    }
  }

  /** The outcome of a piece of JavaScript that either completes with a value
      or throws (in this module, always a `TypeError`). */
  datatype Result<+T> = Ok(value: T) | Throws(message: string)
}
